=== FILE: README.md ===
# Buddy progression and decay engine

This project models the core of a habit-tracking app in Dafny. In the app, a virtual
"buddy" gains health and XP when the user completes habits, and loses health every hour.
The engine is a deterministic state machine over one user record (`UserData`).
Every user intent and every timer event is a pure function `(state, payload, now) -> (state, signals)`.
The intents are: log a habit, complete a weather task, add a habit, take vitamins, log
exercise, log sleep, log a medication dose, toggle medication tracking, finish onboarding.
The timer events are: the offline catch-up, the hourly tick, hiding the app, the daily weather check.
`signals` carries what the app turns into notifications: a reason code, or a level-up with the names of the newly unlocked items.

The modules follow the program's structure:

- `Types`: the record types (habits, compulsory weather tasks, health sub-stats, survey,
  sleep log, user record) and JavaScript's `Math.round`.
- `Clock`: timestamps in milliseconds, calendar day index, hour of day, whole hours elapsed.
- `Constants`: the ten cumulative XP thresholds, the two unlockable items, the default
  habit, and a reference level function `LevelOf` built from the thresholds.
- `DecayManager`: the hourly decay rate.
- `Boost`: the shared health/XP boost with its upward level walk and unlock accumulation.
- `Invariant`: the single state invariant `Valid` that every transition preserves.
- `Habits`, `DailyLogs`, `Medication`, `Onboarding`, `Ticks`: the transitions.
- `Dashboard`, `ProgressTile`, `Analytics`: the derived read-only figures (XP bar,
  weekly completion, most recent habit, categories, streak chart, CSV name field, sleep chart).
- `Strings`: ASCII lower-casing and substring search.

Time is an integer timestamp. `Day(t)` is `t` divided by 86 400 000, rounded down.
The hour of day is computed from the same timestamp.
The current time and the weather are inputs to the functions.
JavaScript numbers are Dafny `real`s (health, sub-stats, multiplier, survey answers, sleep
hours) or `int`s (XP, level, streaks, sleep debt, dose counts, timestamps).
`Math.round(x)` is `floor(x + 1/2)`.

## Model

| member | source | states |
|---|---|---|
| DecayManager.CalculateDecayRate | src/betterbuddy-habit-tracker/services/decayManager.ts:9-47 | the hourly rate is never negative while sleep debt and multiplier are non-negative, and strictly positive when the multiplier is positive |
| DecayManager.AnyIncomplete | src/betterbuddy-habit-tracker/services/decayManager.ts:11 | holds exactly when some compulsory habit is not completed |
| DecayManager.DecayRateDecomposition | src/betterbuddy-habit-tracker/services/decayManager.ts:11-44 | base decay is 2 iff a compulsory habit is open and 1 iff all are done; gut and activity each add 0.5 iff below 50; rate = risk sum x sedentary factor x multiplier |
| DecayManager.ExpectedDosesIntegerForm | src/betterbuddy-habit-tracker/services/decayManager.ts:24-26 | floor(hour / (24 / dosesPerDay)) equals the integer quotient hour x dosesPerDay / 24 |
| DecayManager.ExpectedDosesBelowDaily | src/betterbuddy-habit-tracker/services/decayManager.ts:24-26 | for hours 0..23 the expected count is in 0..dosesPerDay-1 |
| DecayManager.MedsPenaltyCharacterization | src/betterbuddy-habit-tracker/services/decayManager.ts:21-31 | the penalty is 1 exactly when tracking is on, a schedule exists and fewer doses were taken than expected; otherwise 0 |
| DecayManager.NoMedsPenaltyWhenAllTaken | src/betterbuddy-habit-tracker/services/decayManager.ts:21-31 | with all of the day's doses taken there is no penalty at any hour |
| DecayManager.SedentaryFactor | src/betterbuddy-habit-tracker/services/decayManager.ts:33-41 | the factor is one of 0.75, 1 or 1.5, and 1 without a survey |
| DecayManager.SedentaryFactorMonotone | src/betterbuddy-habit-tracker/services/decayManager.ts:34-41 | more sedentary hours never lower the factor; 1.5 iff over 10 hours, 0.75 iff under 4 |
| DecayManager.SleepDebtRaisesRate | src/betterbuddy-habit-tracker/services/decayManager.ts:18-44 | one more point of sleep debt raises the rate by exactly 0.25 x factor x multiplier |
| DecayManager.IncompleteCompulsoryRaisesRate | src/betterbuddy-habit-tracker/services/decayManager.ts:11-44 | replacing an all-done compulsory list by one with an open task raises the rate by factor x multiplier |
| DecayManager.LowGutRaisesRate | src/betterbuddy-habit-tracker/services/decayManager.ts:14-44 | dropping gut below 50 raises the rate by 0.5 x factor x multiplier |
| DecayManager.LowActivityRaisesRate | src/betterbuddy-habit-tracker/services/decayManager.ts:15-44 | dropping activity below 50 raises the rate by 0.5 x factor x multiplier |
| DecayManager.MissedDoseRaisesRate | src/betterbuddy-habit-tracker/services/decayManager.ts:21-44 | being one dose behind the expected count raises the rate by factor x multiplier |
| Constants.ThresholdsWellFormed | src/betterbuddy-habit-tracker/constants.ts:10-21 | ten thresholds, the first is 0, strictly increasing |
| Constants.CustomizationsReachable | src/betterbuddy-habit-tracker/constants.ts:23-34 | every unlock level is in 2..10 and the item ids are distinct |
| Constants.DefaultHabits | src/betterbuddy-habit-tracker/constants.ts:3-7 | one positive habit, id 1, without a negative streak, last completed before load time |
| Constants.CountAtMostIsCut | src/betterbuddy-habit-tracker/constants.ts:9-21 | in a strictly increasing table the number of thresholds at most x is the unique cut point around x |
| Constants.LevelOfBrackets | src/betterbuddy-habit-tracker/constants.ts:9-21 | the reference level of a non-negative XP total is in 1..10 and brackets it: T[level-1] <= xp and (level 10 or xp < T[level]) |
| Boost.ApplyHealthAndXpBoosts | src/betterbuddy-habit-tracker/App.tsx:233-248 | only health, xp, sub-stats, level and unlocks change; health is the sum when it lands in 0..100 and 100 above, and 0 when the sum is negative (the corrected floor of the Findings row); xp + boost; overall = rounded mean; level never lowered, at most 10 and the walk stops only below the next threshold; unlocks keep the old list as a prefix, gain exactly the items with level in (old, new] and have no duplicates; a single level-up signal exactly when the level rose, naming exactly the unlocked items; level, unlocks and signals are those the level walk for the new total gives |
| Boost.WalkLevelMatchesReference | src/betterbuddy-habit-tracker/App.tsx:238-244 | the level-up loop from level L with XP x stops at max(L, LevelOf(x)): it never lowers the level and never stops short |
| Boost.BoostLevelIsWalk | src/betterbuddy-habit-tracker/App.tsx:238-247 | a boost's new level is where the level-up loop stops for the new XP total |
| Boost.BoostScenarioReachesLevelTwo | src/betterbuddy-habit-tracker/App.tsx:238-246 | 90 XP + 20 at level 1 gives 110 XP, level 2 and the party hat |
| Boost.LevelWalk | src/betterbuddy-habit-tracker/App.tsx:238-244 | the walk never lowers the level, ends at most 10, stops below the next threshold, enters only earned levels and collects exactly the items with level in (start, end] |
| Boost.Dedupe | src/betterbuddy-habit-tracker/App.tsx:246 | the Set-based merge keeps first occurrences: no duplicates, same members, identity on a duplicate-free list |
| Boost.BoostHealthAsWritten | src/betterbuddy-habit-tracker/App.tsx:234 | health after a boost as the code writes it: capped at 100 above, and the plain sum otherwise, even when that sum is negative |
| Boost.LevelUpSignals | src/betterbuddy-habit-tracker/App.tsx:245 | the level-up request: at most one signal, none exactly when the walk does not rise, otherwise the walk's level with the names of the items it entered |
| Boost.BoostHealth | src/betterbuddy-habit-tracker/App.tsx:234 | corrected health update: within 0..100, and equal to the as-written min(100, h + d) whenever h + d >= 0 |
| Invariant.BoostPreservesValid | src/betterbuddy-habit-tracker/App.tsx:233-248 | a non-negative XP boost with in-range sub-stats keeps the state valid |
| Habits.LogHabit | src/betterbuddy-habit-tracker/App.tsx:250-289 | an unknown id (the early return when `find` fails) leaves the state unchanged and signals nothing; every branch keeps the number of habits |
| Habits.FindHabit | src/betterbuddy-habit-tracker/App.tsx:252 | the first habit with the id, or none exactly when no habit has it |
| Habits.LatestPositiveCompletion | src/betterbuddy-habit-tracker/App.tsx:270 | none iff there is no positive habit; otherwise the maximum lastCompleted over positive habits |
| Habits.HabitStatBoost | src/betterbuddy-habit-tracker/App.tsx:281-286 | a name mentioning "water" raises hydration by 15; otherwise one mentioning "fiber" raises gut by 5; otherwise activity +10 and mental +5; each capped at 100, every other stat unchanged, and in-range stats stay in range |
| Habits.RelapseEffects | src/betterbuddy-habit-tracker/App.tsx:255-264 | relapse: health max(0, h-25), xp max(0, xp-50), only that habit's lastCompleted and negative streak (0) change, lastActive = now, and nothing else changes (streak, level, unlocks and sub-stats stay); relapse signal |
| Habits.PositiveCompletionEffects | src/betterbuddy-habit-tracker/App.tsx:269-289 | streak +1 exactly when today is a later day than the latest positive completion, else unchanged (never reset); "streak" reason on every fifth day, then exactly the boost's level-up request (one signal when the walk rose, none otherwise); xp +20; the level is where the level walk stops for the new XP total and the unlock list is the old list plus the walk's items without repeats; sub-stats as the name-selected updater gives; only the logged habit's lastCompleted changes; lastActive = now; nothing outside the boost, habits, streak and stamp changes |
| Habits.SameDayCompletionsDoNotInflateStreak | src/betterbuddy-habit-tracker/App.tsx:269-272 | a second completion on the same day leaves the streak alone |
| Habits.LogHabitPreservesValid | src/betterbuddy-habit-tracker/App.tsx:250-289 | logging a habit keeps the state valid |
| Habits.CompleteCompulsoryHabit | src/betterbuddy-habit-tracker/App.tsx:291-302 | unknown id is a no-op; otherwise health +10 (capped), xp rises by the task's reward, sub-stats unchanged, exactly the tasks with that id become completed, lastActive = now, and nothing outside the boost, the task list and the stamp changes; the level is where the level walk stops for the new XP total, the unlock list is the old list plus the walk's items without repeats, and the signals are exactly the boost's level-up request |
| Habits.CompleteCompulsoryPreservesValid | src/betterbuddy-habit-tracker/App.tsx:291-302 | completing a compulsory task keeps the state valid |
| Habits.AddHabit | src/betterbuddy-habit-tracker/App.tsx:304-309 | appends the new habit, +10 XP, health and sub-stats unchanged, level never lowered; nothing outside the boost and the habit list changes (the activity time is not stamped); the level is where the level walk stops for the new XP total, the unlock list is the old list plus the walk's items without repeats, and the signals are exactly the boost's level-up request |
| Habits.AddHabitPreservesValid | src/betterbuddy-habit-tracker/App.tsx:304-309 | adding a habit under a fresh id keeps the state valid |
| DailyLogs.LogVitamins | src/betterbuddy-habit-tracker/App.tsx:311-317 | no-op on the same day; otherwise gut +10 capped, other sub-stats, xp and in-range health unchanged, multiplier max(0.25, 0.75m), stamp = now; nothing outside the boost, multiplier and stamp changes; the level is where the level walk stops for the new XP total, the unlock list is the old list plus the walk's items without repeats, and the signals are exactly the boost's level-up request |
| DailyLogs.LogPhysicalActivity | src/betterbuddy-habit-tracker/App.tsx:319-325 | the same for activity, with its own stamp, and the same level, unlock and signal clauses |
| DailyLogs.BoostersKeepXpLevelHealth | src/betterbuddy-habit-tracker/App.tsx:311-325 | on a valid state boosters change neither xp, level nor health and signal nothing |
| DailyLogs.BoostersOncePerDay | src/betterbuddy-habit-tracker/App.tsx:312-320 | a second booster of the same kind on the same day changes nothing |
| DailyLogs.BoostersCompound | src/betterbuddy-habit-tracker/App.tsx:315-323 | both boosters on a fresh day take multiplier 1 to 0.5625 |
| DailyLogs.ShrinkMultiplier | src/betterbuddy-habit-tracker/App.tsx:315 | the multiplier never drops below 0.25 and never rises |
| DailyLogs.LogSleep | src/betterbuddy-habit-tracker/App.tsx:327-341 | no-op on the same day; otherwise debt max(0, d-1) for good sleep and d+1 for poor, xp +15, mental min(100, m + 10) on good sleep and min(100, m) on poor sleep, the other sub-stats unchanged, the log is the last 30 of the old log plus the new entry, lastSleepLog = now; nothing outside the boost and the sleep fields changes; the level is where the level walk stops for the new XP total, the unlock list is the old list plus the walk's items without repeats, and the signals are exactly the boost's level-up request |
| DailyLogs.SleepHealthEffect | src/betterbuddy-habit-tracker/App.tsx:331-335 | good sleep gives min(100, h+5), poor sleep max(0, h-5) |
| DailyLogs.PoorSleepAsWrittenBreaksHealthFloor | src/betterbuddy-habit-tracker/App.tsx:234 | as written, a poor-sleep log at health 3 gives -2 |
| DailyLogs.SleepOncePerDay | src/betterbuddy-habit-tracker/types.ts:95-96 | a second sleep log on the same day changes nothing |
| DailyLogs.LastN | src/betterbuddy-habit-tracker/App.tsx:340 | for n >= 1 (the code passes 14 and 30), slice(-n) keeps the last min(n, length) entries in order |
| DailyLogs.LogSleepPreservesValid | src/betterbuddy-habit-tracker/types.ts:93-96 | with a 1..5 quality and a clock that does not run backwards, the sleep log stays at most 30 entries on strictly increasing days, newest at lastSleepLog, and the whole state stays valid |
| DailyLogs.LogVitaminsPreservesValid | src/betterbuddy-habit-tracker/App.tsx:311-317 | vitamins keep the state valid |
| DailyLogs.LogPhysicalActivityPreservesValid | src/betterbuddy-habit-tracker/App.tsx:319-325 | exercise keeps the state valid |
| Medication.LogMedication | src/betterbuddy-habit-tracker/App.tsx:343-357 | no-op when tracking is off or the quota is met; otherwise one more dose (never above the schedule), stamp = now, +10 health (capped), +50 XP, sub-stats unchanged; nothing outside the boost and the dose fields changes; the level is where the level walk stops for the new XP total, the unlock list is the old list plus the walk's items without repeats, and the signals are exactly the boost's level-up request |
| Medication.NextMedsStreak | src/betterbuddy-habit-tracker/App.tsx:350-352 | the streak continues iff the last completed day was the previous calendar day, else restarts at 1 |
| Medication.MedsStreakRule | src/betterbuddy-habit-tracker/App.tsx:350-354 | on the completing dose: streak +1 iff last completed day is yesterday else 1, and the completed-day stamp becomes now; on other doses both unchanged |
| Medication.LastCompletedMedDayMovesOnlyOnCompletion | src/betterbuddy-habit-tracker/types.ts:106 | the completed-day stamp changes only on a dose that completes the day |
| Medication.ToggleMeds | src/betterbuddy-habit-tracker/App.tsx:359-362 | sets tracking, schedule d when enabling and 0 when disabling, zeroes today's doses and the streak, nothing else changes |
| Medication.LogMedicationPreservesValid | src/betterbuddy-habit-tracker/App.tsx:343-357 | a dose keeps the state valid and doses taken at most the schedule |
| Medication.ToggleMedsPreservesValid | src/betterbuddy-habit-tracker/App.tsx:359-362 | toggling with a non-negative schedule keeps the state valid |
| Onboarding.HydrationScore | src/betterbuddy-habit-tracker/App.tsx:189 | in 0..100 for non-negative water, 100 at 8 or more glasses, 0 at none |
| Onboarding.ClampScore | src/betterbuddy-habit-tracker/App.tsx:190-192 | the clamp gives 0..100 and is the identity inside it |
| Onboarding.SurveyScores | src/betterbuddy-habit-tracker/App.tsx:188-193 | activity, mental and gut are clamped rounded blends in 0..100; with non-negative water all four are valid and overall is their rounded mean |
| Onboarding.CompleteOnboarding | src/betterbuddy-habit-tracker/App.tsx:185-227 | starting health = overall score, xp 50, level 1, nothing unlocked, multiplier 1, default habit, zeroed counters, the vitamin, activity, sleep, dose and completed-day stamps all 0 (so the first log of each kind on any later day is not gated), onboarding signal |
| Onboarding.OnboardingStartsValid | src/betterbuddy-habit-tracker/App.tsx:185-227 | the initial state is valid for non-negative water and dose schedule |
| Ticks.SleepStatDecay | src/betterbuddy-habit-tracker/App.tsx:104-113 | each sub-stat drops by the amount (mental 1.5x) floored at 0, stays valid and never rises |
| Ticks.DecayHours | src/betterbuddy-habit-tracker/App.tsx:100-113 | health drops by hours x rate floored at 0, every sub-stat drains by hours x a tenth of the sleep debt, lastActive = now, nothing else changes; health stays in 0..100 and never rises, sub-stats stay valid |
| Ticks.OfflineDecay | src/betterbuddy-habit-tracker/App.tsx:96-116 | no whole hour elapsed: no change; otherwise every elapsed whole hour is charged at the current rate, with no signal |
| Ticks.OfflineDecayIdempotent | src/betterbuddy-habit-tracker/App.tsx:98-114 | a repeat catch-up at the same instant changes nothing |
| Ticks.OfflineDecayPreservesValid | src/betterbuddy-habit-tracker/App.tsx:96-116 | the catch-up keeps the state valid and never raises health |
| Ticks.ResetDosesIfNewDay | src/betterbuddy-habit-tracker/App.tsx:128-130 | doses taken reset to 0 exactly when tracking is on and the last dose was on another day |
| Ticks.HourlyTick | src/betterbuddy-habit-tracker/App.tsx:120-148 | after the new-day dose reset, exactly one hour of decay at the rate of the reset state; low-health signal exactly when health crosses below 20 |
| Ticks.TickStrictlyDecays | src/betterbuddy-habit-tracker/App.tsx:132-133 | in a valid state each tick strictly lowers positive health |
| Ticks.HourlyTickPreservesValid | src/betterbuddy-habit-tracker/App.tsx:120-148 | the tick keeps the state valid and never raises health |
| Ticks.TwoDoseDayExtendsStreak | src/betterbuddy-habit-tracker/App.tsx:128-130 | on a new day the tick resets the counter, and two doses on a two-dose schedule the day after a completed day extend the streak by one |
| Ticks.Hide | src/betterbuddy-habit-tracker/App.tsx:151-155 | going hidden only stamps lastActive |
| Ticks.HidePreservesValid | src/betterbuddy-habit-tracker/App.tsx:151-155 | hiding keeps the state valid |
| Ticks.WeatherHabits | src/betterbuddy-habit-tracker/App.tsx:84 | cold weather asks for one open "compulsory-cold" task worth 30 XP; other weather asks for none |
| Ticks.RegenerateCompulsoryHabits | src/betterbuddy-habit-tracker/App.tsx:80-87 | no change on the day of the last check; otherwise the compulsory list is replaced by the weather's and the check is stamped |
| Ticks.RegenerateOncePerDay | src/betterbuddy-habit-tracker/App.tsx:82 | a second check later the same day changes nothing, whatever the weather |
| Ticks.ColdDayRaisesDecay | src/betterbuddy-habit-tracker/App.tsx:80-87 | a cold day after all tasks were done raises the decay rate by factor x multiplier |
| Ticks.RegeneratePreservesValid | src/betterbuddy-habit-tracker/App.tsx:80-87 | the weather check keeps the state valid |
| Dashboard.XpProgress | src/betterbuddy-habit-tracker/components/Dashboard.tsx:98-102 | 100 at level 10; in [0,100) while xp is in its level's bracket; below 10 it is 0 iff xp is at the level's threshold and negative iff below it |
| Dashboard.ProgressBelowFullWhenValid | src/betterbuddy-habit-tracker/components/Dashboard.tsx:98-102 | in a valid state below level 10 the bar is below 100 |
| Dashboard.RelapseCanDriveProgressNegative | src/betterbuddy-habit-tracker/components/Dashboard.tsx:100-102 | a relapse at level 2 with under 150 XP makes the bar negative, because the level is not lowered |
| ProgressTile.CountRecent | src/betterbuddy-habit-tracker/components/ProgressTile.tsx:28 | at most the number of habits; 0 iff none is recent; all iff every habit is recent |
| ProgressTile.CountRecentAppend | src/betterbuddy-habit-tracker/components/ProgressTile.tsx:28 | the count of a concatenation is the sum of the counts |
| ProgressTile.WeeklyCompletion | src/betterbuddy-habit-tracker/components/ProgressTile.tsx:26-30 | 0 with no habits, always in 0..100, 100 when all were done this week, 0 when none were; otherwise the share count/total x 100 rounded to the nearest integer (within half a point) |
| ProgressTile.WeeklyCompletionExtremes | src/betterbuddy-habit-tracker/components/ProgressTile.tsx:26-30 | with 1..100 habits the tile shows 100 exactly when every habit was done in the last week and 0 exactly when none was |
| ProgressTile.MostRecentIndex | src/betterbuddy-habit-tracker/components/ProgressTile.tsx:32-34 | an index whose lastCompleted is at least every habit's, and strictly greater than every earlier one's (ties keep the earliest) |
| ProgressTile.MostRecentIndexUnique | src/betterbuddy-habit-tracker/components/ProgressTile.tsx:32-34 | any index that is maximal and earliest among maximal ones is the one the reduction returns |
| ProgressTile.MostRecentHabit | src/betterbuddy-habit-tracker/components/ProgressTile.tsx:32-34 | none iff there are no habits; otherwise a habit from the list completed no earlier than any other, and among ties the earliest in the list (the reduce replaces only on a strictly later time) |
| Analytics.CategorizeIgnoresCase | src/betterbuddy-habit-tracker/components/AnalyticsModal.tsx:17-18 | upper- or lower-casing the name does not change its category |
| Analytics.CategoryByKeywords | src/betterbuddy-habit-tracker/components/AnalyticsModal.tsx:17-24 | first match wins: Hydration iff the name mentions water or hydrate; Physical iff not that but an exercise word; Mental iff neither group but read, study or meditate; Gut iff none of those but fiber or veg; General iff no group matches |
| Analytics.NoKeywordIsGeneral | src/betterbuddy-habit-tracker/components/AnalyticsModal.tsx:17-24 | a name is General exactly when it mentions none of the eleven keywords |
| Analytics.CategoryCountsSum | src/betterbuddy-habit-tracker/components/AnalyticsModal.tsx:73-77 | the five category counts add up to the number of habits |
| Analytics.CategoryCounts | src/betterbuddy-habit-tracker/components/AnalyticsModal.tsx:73-77 | the map holds exactly the categories that occur, each with its count |
| Analytics.StreakData | src/betterbuddy-habit-tracker/components/AnalyticsModal.tsx:65-70 | one zero point for no streak; otherwise min(30, streak) + 1 points valued 1..n, labelled n-1..0 days ago, then today's streak |
| Analytics.StreakDataShape | src/betterbuddy-habit-tracker/components/AnalyticsModal.tsx:65-70 | the series never decreases and its day labels count down to today |
| Analytics.Escape | src/betterbuddy-habit-tracker/components/AnalyticsModal.tsx:50 | the `replace(/"/g, '""')` step never shortens the name and leaves a quote-free name unchanged |
| Analytics.CsvNameField | src/betterbuddy-habit-tracker/components/AnalyticsModal.tsx:50 | the exported name field is the escaped name between two double quotes, so it starts and ends with a quote and is at least two characters longer |
| Analytics.UnescapeEscape | src/betterbuddy-habit-tracker/components/AnalyticsModal.tsx:50 | un-escaping the doubled-quote body returns the name |
| Analytics.CsvFieldRoundTrip | src/betterbuddy-habit-tracker/components/AnalyticsModal.tsx:50 | the quoted name field parses back to exactly the name (RFC 4180 section 2 rule 7) |
| Analytics.CsvFieldInjective | src/betterbuddy-habit-tracker/components/AnalyticsModal.tsx:50 | different names give different fields |
| Analytics.SleepData | src/betterbuddy-habit-tracker/components/AnalyticsModal.tsx:85 | the last min(14, n) logs in their original order |
| Analytics.SleepChartUnaffectedByRetention | src/betterbuddy-habit-tracker/components/AnalyticsModal.tsx:85 | keeping only 30 logs never changes the 14-entry chart |
| Analytics.SleepChartChronological | src/betterbuddy-habit-tracker/components/AnalyticsModal.tsx:85 | in a valid state the chart's entries fall on strictly increasing days |
| Strings.ContainsIff | src/betterbuddy-habit-tracker/components/AnalyticsModal.tsx:19 | the substring test holds iff the keyword occurs at some position |
| Strings.LowerForgetsCase | src/betterbuddy-habit-tracker/components/AnalyticsModal.tsx:18 | lower-casing an upper-cased or lower-cased string gives the same as lower-casing the original |
| Clock.DayMonotone | src/betterbuddy-habit-tracker/App.tsx:269-272 | a later timestamp is never on an earlier calendar day |
| Clock.DayBefore | src/betterbuddy-habit-tracker/App.tsx:350-352 | one day earlier is the previous calendar day |
| Types.Round | src/betterbuddy-habit-tracker/App.tsx:237 | the rounded value is within half a unit of its argument |

The state invariant `Invariant.Valid` bundles what the record's documentation and the code promise:
- health and the sub-stats are in 0..100, and `overall` is the rounded mean of the four sub-stats;
- XP is non-negative, the level is in 1..10 and is never below what the XP total has earned;
- the unlocked ids are duplicate-free and are exactly the items at or below the level;
- the decay multiplier is in 0.25..1, and sleep debt and both streaks are non-negative;
- doses taken are at most the schedule;
- the sleep log has at most 30 entries with quality 1..5, on strictly increasing days, the newest dated `lastSleepLog`;
- habit ids are distinct, and a negative streak is present exactly on habits to avoid;
- compulsory rewards are non-negative.

Every transition is proved to preserve `Valid`.

Behaviour kept exactly as the code has it:
- The boost has no XP floor.
- The level is never lowered after an XP penalty.
- The positive streak never resets after a gap.
- Only the offline catch-up is idempotent; the hourly tick always subtracts one more hour of decay.

## Left out

- Sound, animation, balloons, the level-up modal, buddy status and actions: presentation only. Level-ups and notification reasons appear as signals.
- React scheduling: `useEffect`, `setInterval` and the visibility listener. The tick, catch-up, hide and weather check are explicit functions called with the current time.
- Browser storage, JSON/ICS export, and the CSV download mechanics and date formatting: I/O. Only the quoted name field of the CSV is modelled.
- The AI notification and insight service: a network call. The engine only emits reason codes.
- The mock weather source: weather is a parameter of the daily check.
- Time zones and daylight saving: `Day` is a UTC-style day index. The hour of day comes from the same timestamp rather than the local clock. `subDays(now, 1)` is `now` minus 86 400 000 ms.
- IEEE floating point: numbers are exact reals, and `Math.round` is floor(x + 1/2).
- Unicode case mapping: lower-casing covers ASCII letters only.
- Presentation fields of the user record: buddy name and type, theme, size, open counters, the 50-health flag and the equipped item.
- `ProgressTile`'s sparkline: random demo data.
- Sign-in, settings and the demo scheduler.
- Medication.ToggleMedsPreservesValid: requires a non-negative schedule. The settings menu passes at least one dose, but the handler itself accepts any number.
- Habits.AddHabitPreservesValid: requires that the clock-derived id is not already used. The handler takes the id from `Date.now()`, and two adds in the same millisecond would collide.
- DailyLogs.LogSleepPreservesValid: requires a clock that does not run backwards (`lastSleepLog <= now`) and a 1..5 quality, which the sleep form guarantees.
- Invariant.BoostPreservesValid: requires a non-negative XP boost, which every caller passes.
- Analytics.CategoryCounts: a map has no key order, so the order of `Object.keys` that fixes the pie slices and their colours (AnalyticsModal.tsx:79, 122) is not modelled; it is presentation only.
- Boost.ApplyHealthAndXpBoosts: floors health at 0 as well as capping it at 100, which is the corrected behaviour of the Findings row; the code as written only caps it (modelled separately as `Boost.BoostHealthAsWritten`). Every caller except the sleep log passes a non-negative health boost, so for them the two agree on any health in 0..100.
- DailyLogs.LogSleep: poor sleep at health below 5 leaves health at 0 (through the corrected boost), where the code as written would go negative; see the Findings row.
- Onboarding.CompleteOnboarding: the onboarding signal records the notification request the handler makes (App.tsx:229). At runtime that request is dropped, because the notification helper returns early while the user record is still unset (App.tsx:57) and onboarding only runs in that state; the model does not track the asynchronous helper.

## Findings

| source | as written | input that shows it | evidently intended | confidence | as-written member | corrected member |
|---|---|---|---|---|---|---|
| src/betterbuddy-habit-tracker/App.tsx:234 | the boost caps health only at 100, and the poor-sleep handler passes -5 (App.tsx:332) | health 3, then a sleep log with quality 2 and 5 hours: health becomes -2 | health stays in the documented 0..100 range (types.ts:79), clamped at 0 like the relapse and decay paths | not executed | Boost.BoostHealthAsWritten, DailyLogs.PoorSleepAsWrittenBreaksHealthFloor | Boost.BoostHealth, DailyLogs.SleepHealthEffect |

=== FILE: analytics.dfy ===
/** The analytics view: habit categories and their counts, the streak chart series, the
    quoted habit-name field of the CSV export, and the sleep chart's recent window. */
module Analytics {
  import opened Types
  import opened Strings
  import opened Invariant
  import opened DailyLogs

  datatype Category = Hydration | Physical | Mental | Gut | General

  /** Keyword categorisation of a habit name, case-insensitive, first match wins in the
      order hydration, physical, mental, gut. */
  function CategorizeHabit(name: string): (c: Category)
  {
    var lower := ToLower(name);
    if Contains(lower, "water") || Contains(lower, "hydrate") then Hydration
    else if Contains(lower, "walk") || Contains(lower, "run") || Contains(lower, "gym") || Contains(lower, "exercise") then Physical
    else if Contains(lower, "read") || Contains(lower, "study") || Contains(lower, "meditate") then Mental
    else if Contains(lower, "fiber") || Contains(lower, "veg") then Gut
    else General
  }

  /** Categorisation ignores letter case. */
  lemma CategorizeIgnoresCase(name: string)
    ensures CategorizeHabit(ToUpper(name)) == CategorizeHabit(name)
    ensures CategorizeHabit(ToLower(name)) == CategorizeHabit(name)
  {
    LowerForgetsCase(name);
  }

  /** The categorisation is first-match over the keyword groups: Hydration exactly when the
      name mentions "water" or "hydrate"; Physical when it mentions none of those but an
      exercise word; Mental when it mentions neither group but a reading or calm word; Gut
      when it mentions none of the three groups but "fiber" or "veg". */
  lemma CategoryByKeywords(name: string)
    ensures CategorizeHabit(name) == Hydration <==> HydrationWord(name)
    ensures CategorizeHabit(name) == Physical <==> !HydrationWord(name) && PhysicalWord(name)
    ensures CategorizeHabit(name) == Mental <==> !HydrationWord(name) && !PhysicalWord(name) && MentalWord(name)
    ensures CategorizeHabit(name) == Gut <==>
              !HydrationWord(name) && !PhysicalWord(name) && !MentalWord(name) && GutWord(name)
    ensures CategorizeHabit(name) == General <==>
              !HydrationWord(name) && !PhysicalWord(name) && !MentalWord(name) && !GutWord(name)
  {
    var lower := ToLower(name);
    ContainsIff(lower, "water");
    ContainsIff(lower, "hydrate");
    ContainsIff(lower, "walk");
    ContainsIff(lower, "run");
    ContainsIff(lower, "gym");
    ContainsIff(lower, "exercise");
    ContainsIff(lower, "read");
    ContainsIff(lower, "study");
    ContainsIff(lower, "meditate");
    ContainsIff(lower, "fiber");
    ContainsIff(lower, "veg");
  }

  ghost predicate HydrationWord(name: string)
  {
    Mentions(name, "water") || Mentions(name, "hydrate")
  }

  ghost predicate PhysicalWord(name: string)
  {
    Mentions(name, "walk") || Mentions(name, "run") || Mentions(name, "gym") || Mentions(name, "exercise")
  }

  ghost predicate MentalWord(name: string)
  {
    Mentions(name, "read") || Mentions(name, "study") || Mentions(name, "meditate")
  }

  ghost predicate GutWord(name: string)
  {
    Mentions(name, "fiber") || Mentions(name, "veg")
  }

  /** Every keyword the categorisation looks for. */
  const Keywords: seq<string> :=
    ["water", "hydrate", "walk", "run", "gym", "exercise", "read", "study", "meditate", "fiber", "veg"]

  /** A name is General exactly when it mentions no keyword at all. */
  lemma NoKeywordIsGeneral(name: string)
    ensures CategorizeHabit(name) == General <==> forall p :: p in Keywords ==> !Mentions(name, p)
  {
    CategoryByKeywords(name);
    if CategorizeHabit(name) == General {
      forall p | p in Keywords ensures !Mentions(name, p) {
        assert p in {"water", "hydrate", "walk", "run", "gym", "exercise", "read", "study", "meditate", "fiber", "veg"};
      }
    } else {
      assert HydrationWord(name) || PhysicalWord(name) || MentalWord(name) || GutWord(name);
      assert Keywords[0] == "water" && Keywords[1] == "hydrate" && Keywords[2] == "walk" && Keywords[3] == "run";
      assert Keywords[4] == "gym" && Keywords[5] == "exercise" && Keywords[6] == "read" && Keywords[7] == "study";
      assert Keywords[8] == "meditate" && Keywords[9] == "fiber" && Keywords[10] == "veg";
    }
  }

  /** How many habits fall in category `c`. */
  function CountCategory(hs: seq<Habit>, c: Category): (n: nat)
    ensures n <= |hs|
  {
    if |hs| == 0 then 0
    else CountCategory(hs[..|hs| - 1], c) + (if CategorizeHabit(hs[|hs| - 1].name) == c then 1 else 0)
  }

  function CategoryTotal(hs: seq<Habit>): nat
  {
    CountCategory(hs, Hydration) + CountCategory(hs, Physical) + CountCategory(hs, Mental)
      + CountCategory(hs, Gut) + CountCategory(hs, General)
  }

  /** Every habit falls in exactly one category, so the five counts add up to the number of habits. */
  lemma {:induction false} CategoryCountsSum(hs: seq<Habit>)
    ensures CategoryTotal(hs) == |hs|
    decreases |hs|
  {
    if |hs| > 0 {
      CategoryCountsSum(hs[..|hs| - 1]);
    }
  }

  /** categoryCounts: a map from each category that occurs to its number of habits. */
  method CategoryCounts(hs: seq<Habit>) returns (m: map<Category, nat>)
    ensures forall c :: c in m <==> CountCategory(hs, c) > 0
    ensures forall c :: c in m ==> m[c] == CountCategory(hs, c)
  {
    m := map[];
    var i := 0;
    while i < |hs|
      invariant 0 <= i <= |hs|
      invariant forall c :: c in m <==> CountCategory(hs[..i], c) > 0
      invariant forall c :: c in m ==> m[c] == CountCategory(hs[..i], c)
    {
      var c := CategorizeHabit(hs[i].name);
      m := m[c := (if c in m then m[c] else 0) + 1];
      assert hs[..i + 1][..i] == hs[..i];
      i := i + 1;
    }
    assert hs[..|hs|] == hs;
  }

  /** A chart point's x label: some whole days ago, or today. */
  datatype DayLabel = DaysAgo(days: nat) | Today

  datatype StreakPoint = StreakPoint(day: DayLabel, streak: int)

  /** The streak chart: with no streak a single zero point for today; otherwise one point per
      day of the (at most 30-day) run, counting up from 1, then today's full streak. */
  function StreakData(streak: int): (r: seq<StreakPoint>)
    ensures streak <= 0 ==> r == [StreakPoint(Today, 0)]
    ensures streak > 0 ==> |r| == MinInt(30, streak) + 1
    ensures |r| > 0 && r[|r| - 1] == StreakPoint(Today, MaxInt(0, streak))
    ensures forall i :: 0 <= i < |r| - 1 ==> r[i] == StreakPoint(DaysAgo(|r| - 2 - i), i + 1)
  {
    if streak > 0 then
      var n := MinInt(30, streak);
      seq(n, i requires 0 <= i < n => StreakPoint(DaysAgo(n - i - 1), i + 1)) + [StreakPoint(Today, streak)]
    else [StreakPoint(Today, 0)]
  }

  /** The streak series never goes down, and its day labels count down to today without gaps. */
  lemma StreakDataShape(streak: int)
    ensures var r := StreakData(streak);
            forall i, j :: 0 <= i < j < |r| ==> r[i].streak <= r[j].streak
    ensures var r := StreakData(streak);
            forall i :: 0 <= i < |r| - 1 ==> r[i].day.days == |r| - 2 - i
  {
    var r := StreakData(streak);
    forall i, j | 0 <= i < j < |r| ensures r[i].streak <= r[j].streak {
      if j == |r| - 1 {
        assert r[i].streak == i + 1 <= |r| - 1 <= streak;
      }
    }
  }

  /** The CSV body of a name: every double quote doubled. */
  function Escape(s: string): (r: string)
    ensures |r| >= |s|
    ensures (forall i :: 0 <= i < |s| ==> s[i] != '"') ==> r == s
  {
    if |s| == 0 then []
    else (if s[0] == '"' then "\"\"" else [s[0]]) + Escape(s[1..])
  }

  /** The quoted name field of the export row. */
  function CsvNameField(name: string): (f: string)
    ensures |f| >= |name| + 2 && f[0] == '"' && f[|f| - 1] == '"'
  {
    "\"" + Escape(name) + "\""
  }

  /** Reading a quoted field's body back under the rule that a double quote inside a quoted
      field is written twice (section 2, rule 7 of RFC 4180); a lone quote is malformed. */
  function Unescape(e: string): (r: Option<string>)
    decreases |e|
  {
    if |e| == 0 then Some([])
    else if e[0] == '"' then
      if |e| >= 2 && e[1] == '"' then
        match Unescape(e[2..])
        case Some(rest) => Some(['"'] + rest)
        case None => None
      else None
    else
      match Unescape(e[1..])
      case Some(rest) => Some([e[0]] + rest)
      case None => None
  }

  /** Reading a whole field: it must be wrapped in double quotes. */
  function ParseNameField(f: string): (r: Option<string>)
  {
    if |f| >= 2 && f[0] == '"' && f[|f| - 1] == '"' then Unescape(f[1..|f| - 1]) else None
  }

  /** Un-escaping undoes escaping. */
  lemma {:induction false} UnescapeEscape(s: string)
    ensures Unescape(Escape(s)) == Some(s)
    decreases |s|
  {
    if |s| > 0 {
      UnescapeEscape(s[1..]);
      var e := Escape(s);
      if s[0] == '"' {
        assert e[2..] == Escape(s[1..]);
      } else {
        assert e[1..] == Escape(s[1..]);
      }
      assert s == [s[0]] + s[1..];
    }
  }

  /** The exported name field reads back as exactly the habit's name. */
  lemma CsvFieldRoundTrip(name: string)
    ensures ParseNameField(CsvNameField(name)) == Some(name)
  {
    var f := CsvNameField(name);
    assert f[1..|f| - 1] == Escape(name);
    UnescapeEscape(name);
  }

  /** Two names export to the same field only if they are the same name. */
  lemma CsvFieldInjective(a: string, b: string)
    requires CsvNameField(a) == CsvNameField(b)
    ensures a == b
  {
    CsvFieldRoundTrip(a);
    CsvFieldRoundTrip(b);
  }

  /** The sleep chart's window: the last (at most) 14 entries, in their original order. */
  function SleepData(logs: seq<SleepLog>): (r: seq<SleepLog>)
    ensures |r| == MinInt(14, |logs|)
    ensures r == logs[|logs| - |r|..]
  {
    LastN(logs, 14)
  }

  /** Keeping only the last 30 logs never changes the chart, which shows at most the last 14. */
  lemma SleepChartUnaffectedByRetention(logs: seq<SleepLog>)
    ensures SleepData(LastN(logs, MaxSleepLogs)) == SleepData(logs)
  {
  }

  /** In a valid state the chart's entries are on strictly increasing days. */
  lemma SleepChartChronological(data: UserData)
    requires Valid(data)
    ensures IncreasingDays(SleepData(data.sleepLogs))
  {
    assert IncreasingDays(data.sleepLogs);
    SuffixKeepsIncreasing(data.sleepLogs, 14);
  }
}

=== FILE: boost.dfy ===
/** applyHealthAndXpBoosts: the one place health, XP, sub-stats, level and
    unlocked items move together. */
module Boost {
  import opened Types
  import opened Constants

  /** Health after a boost as the source writes it: only the top is capped at 100. */
  function BoostHealthAsWritten(health: real, delta: real): (r: real)
    ensures r <= 100.0
    ensures health + delta <= 100.0 ==> r == health + delta
    ensures health + delta > 100.0 ==> r == 100.0
  {
    Min(100.0, health + delta)
  }

  /** Health after a boost, kept in the documented 0..100 range; it differs from the
      as-written cap only when health + delta would be negative. */
  function BoostHealth(health: real, delta: real): (r: real)
    ensures 0.0 <= r <= 100.0
    ensures 0.0 <= health + delta <= 100.0 ==> r == health + delta
    ensures health + delta > 100.0 ==> r == 100.0
    ensures health + delta < 0.0 ==> r == 0.0
    ensures health + delta >= 0.0 ==> r == BoostHealthAsWritten(health, delta)
  {
    Max(0.0, Min(100.0, health + delta))
  }

  /** The customizations of `cs` bound to `level`, in their declaration order. */
  function AtLevel(cs: seq<Customization>, level: int): (r: seq<Customization>)
    ensures forall c :: c in r <==> c in cs && c.level == level
    ensures |r| <= |cs|
  {
    if |cs| == 0 then []
    else (if cs[0].level == level then [cs[0]] else []) + AtLevel(cs[1..], level)
  }

  datatype WalkResult = WalkResult(level: int, unlocked: seq<Customization>)

  /** The upward level walk: step up while the next threshold is reached, collecting
      the customizations bound to each level entered. */
  function LevelWalk(level: int, xp: int): (w: WalkResult)
    ensures level <= w.level
    ensures level <= MaxLevel ==> w.level <= MaxLevel
    ensures !(0 <= w.level < |LevelThresholds| && xp >= LevelThresholds[w.level])
    ensures w.level > level ==> 1 <= w.level <= MaxLevel && LevelThresholds[w.level - 1] <= xp
    ensures forall c :: c in w.unlocked <==> c in Customizations && level < c.level <= w.level
    decreases MaxLevel - level
  {
    if 0 <= level < |LevelThresholds| && xp >= LevelThresholds[level] then
      var rest := LevelWalk(level + 1, xp);
      WalkResult(rest.level, AtLevel(Customizations, level + 1) + rest.unlocked)
    else
      WalkResult(level, [])
  }

  predicate NoDuplicates<T(==)>(s: seq<T>)
  {
    forall i, j :: 0 <= i < j < |s| ==> s[i] != s[j]
  }

  /** [...new Set(s)]: first occurrences, in order. */
  function Dedupe(s: seq<string>): (r: seq<string>)
    ensures NoDuplicates(r)
    ensures forall x :: x in r <==> x in s
    ensures NoDuplicates(s) ==> r == s
    decreases |s|
  {
    if |s| == 0 then []
    else
      var p := Dedupe(s[..|s| - 1]);
      if s[|s| - 1] in p then p else p + [s[|s| - 1]]
  }

  /** A duplicate-free prefix survives deduplication unchanged and in place. */
  lemma {:induction false} DedupeKeepsPrefix(a: seq<string>, b: seq<string>)
    requires NoDuplicates(a)
    ensures |a| <= |Dedupe(a + b)|
    ensures Dedupe(a + b)[..|a|] == a
    decreases |b|
  {
    if |b| == 0 {
      assert a + b == a;
    } else {
      var b' := b[..|b| - 1];
      assert (a + b)[..|a + b| - 1] == a + b';
      DedupeKeepsPrefix(a, b');
    }
  }

  function Ids(cs: seq<Customization>): (ids: seq<string>)
    ensures |ids| == |cs|
    ensures forall i :: 0 <= i < |cs| ==> ids[i] == cs[i].id
  {
    seq(|cs|, i requires 0 <= i < |cs| => cs[i].id)
  }

  function Names(cs: seq<Customization>): (names: seq<string>)
    ensures |names| == |cs|
    ensures forall i :: 0 <= i < |cs| ==> names[i] == cs[i].name
  {
    seq(|cs|, i requires 0 <= i < |cs| => cs[i].name)
  }

  lemma IdsMembership(cs: seq<Customization>)
    ensures forall id :: id in Ids(cs) <==> exists c :: c in cs && c.id == id
  {
    forall id | exists c :: c in cs && c.id == id
      ensures id in Ids(cs)
    {
      var c :| c in cs && c.id == id;
      var i :| 0 <= i < |cs| && cs[i] == c;
      assert Ids(cs)[i] == id;
    }
  }

  lemma NamesMembership(cs: seq<Customization>)
    ensures forall n :: n in Names(cs) <==> exists c :: c in cs && c.name == n
  {
    forall n | exists c :: c in cs && c.name == n
      ensures n in Names(cs)
    {
      var c :| c in cs && c.name == n;
      var i :| 0 <= i < |cs| && cs[i] == c;
      assert Names(cs)[i] == n;
    }
  }

  /** The ids and names a walk collects are exactly those of the customizations
      bound to the levels it entered. */
  lemma WalkIdsAndNames(level: int, xp: int)
    ensures forall id :: id in Ids(LevelWalk(level, xp).unlocked) <==>
              exists c :: c in Customizations && c.id == id && level < c.level <= LevelWalk(level, xp).level
    ensures forall n :: n in Names(LevelWalk(level, xp).unlocked) <==>
              exists c :: c in Customizations && c.name == n && level < c.level <= LevelWalk(level, xp).level
  {
    IdsMembership(LevelWalk(level, xp).unlocked);
    NamesMembership(LevelWalk(level, xp).unlocked);
  }

  /** The level and unlocked list the level walk gives when XP moves to `after.xp`: the
      level is where the walk from the old level stops, and the unlocked ids are the old
      list followed by the ids of the items entered on the way, without repeats. */
  predicate WalkedLevel(before: UserData, after: UserData)
  {
    var walk := LevelWalk(before.level, after.xp);
    && after.level == walk.level
    && after.unlockedCustomizations == Dedupe(before.unlockedCustomizations + Ids(walk.unlocked))
  }

  /** The level-up request a boost emits: one signal carrying the new level and the names
      of the items unlocked on the way when the walk rises, none otherwise. */
  function LevelUpSignals(level: int, xp: int): (r: seq<Signal>)
    ensures |r| <= 1
    ensures r == [] <==> LevelWalk(level, xp).level == level
    ensures r != [] ==> r[0] == LevelUp(LevelWalk(level, xp).level, Names(LevelWalk(level, xp).unlocked))
  {
    var walk := LevelWalk(level, xp);
    if walk.level > level then [LevelUp(walk.level, Names(walk.unlocked))] else []
  }

  /** applyHealthAndXpBoosts. `stats` is the result of the caller's sub-stat updater;
      its `overall` is recomputed here. Only health, xp, sub-stats, level and the
      unlocked list change; a level-up is signalled with the new level and the
      names of the items it unlocked. */
  function ApplyHealthAndXpBoosts(data: UserData, healthBoost: real, xpBoost: int, stats: UserHealthStats): (t: Transition)
    ensures t.data == data.(health := t.data.health, xp := t.data.xp, userHealth := t.data.userHealth,
                            level := t.data.level, unlockedCustomizations := t.data.unlockedCustomizations)
    ensures 0.0 <= t.data.health <= 100.0
    ensures 0.0 <= data.health + healthBoost <= 100.0 ==> t.data.health == data.health + healthBoost
    ensures data.health + healthBoost > 100.0 ==> t.data.health == 100.0
    ensures data.health + healthBoost < 0.0 ==> t.data.health == 0.0
    ensures t.data.xp == data.xp + xpBoost
    ensures t.data.userHealth.hydration == stats.hydration && t.data.userHealth.activity == stats.activity
    ensures t.data.userHealth.mental == stats.mental && t.data.userHealth.gut == stats.gut
    ensures t.data.userHealth.overall == OverallOf(t.data.userHealth)
    ensures data.level <= t.data.level
    ensures data.level <= MaxLevel ==> t.data.level <= MaxLevel
    ensures !(0 <= t.data.level < |LevelThresholds| && t.data.xp >= LevelThresholds[t.data.level])
    ensures t.data.level > data.level ==>
              1 <= t.data.level <= MaxLevel && LevelThresholds[t.data.level - 1] <= t.data.xp
    ensures NoDuplicates(t.data.unlockedCustomizations)
    ensures forall id :: id in t.data.unlockedCustomizations <==>
              (id in data.unlockedCustomizations ||
               exists c :: c in Customizations && c.id == id && data.level < c.level <= t.data.level)
    ensures NoDuplicates(data.unlockedCustomizations) ==>
              |data.unlockedCustomizations| <= |t.data.unlockedCustomizations| &&
              t.data.unlockedCustomizations[..|data.unlockedCustomizations|] == data.unlockedCustomizations
    ensures WalkedLevel(data, t.data)
    ensures t.signals == LevelUpSignals(data.level, t.data.xp)
    ensures t.signals == [] <==> t.data.level == data.level
    ensures t.data.level > data.level ==>
              |t.signals| == 1 && t.signals[0].LevelUp? && t.signals[0].level == t.data.level &&
              forall n :: n in t.signals[0].unlockedNames <==>
                exists c :: c in Customizations && c.name == n && data.level < c.level <= t.data.level
  {
    var newXp := data.xp + xpBoost;
    var walk := LevelWalk(data.level, newXp);
    var ids := Ids(walk.unlocked);
    var unlocked := Dedupe(data.unlockedCustomizations + ids);
    assert NoDuplicates(data.unlockedCustomizations) ==>
             |data.unlockedCustomizations| <= |unlocked| &&
             unlocked[..|data.unlockedCustomizations|] == data.unlockedCustomizations by {
      if NoDuplicates(data.unlockedCustomizations) {
        DedupeKeepsPrefix(data.unlockedCustomizations, ids);
      }
    }
    WalkIdsAndNames(data.level, newXp);
    var signals := LevelUpSignals(data.level, newXp);
    Transition(
      data.(health := BoostHealth(data.health, healthBoost),
            xp := newXp,
            userHealth := WithOverall(stats),
            level := walk.level,
            unlockedCustomizations := unlocked),
      signals)
  }

  /** The level walk from `level` ends at the larger of `level` and the reference level
      of `xp`: it never lowers the level and never stops short. */
  lemma WalkLevelMatchesReference(level: int, xp: int)
    requires 1 <= level <= MaxLevel
    requires xp >= 0
    ensures LevelWalk(level, xp).level == MaxInt(level, LevelOf(xp))
  {
    var r := LevelWalk(level, xp).level;
    ThresholdsWellFormed();
    CountAtMostBrackets(LevelThresholds, xp);
    LevelOfBrackets(xp);
    if r != level {
      CountAtMostIsCut(LevelThresholds, xp, r);
    }
  }

  /** A boost's new level is where the level walk from the old level stops for the new XP
      total, so it is the larger of the old level and the reference level of that total. */
  lemma BoostLevelIsWalk(data: UserData, healthBoost: real, xpBoost: int, stats: UserHealthStats)
    ensures ApplyHealthAndXpBoosts(data, healthBoost, xpBoost, stats).data.level ==
              LevelWalk(data.level, data.xp + xpBoost).level
  {
  }

  /** Starting at 90 XP on level 1, a 20 XP boost reaches level 2 and unlocks the party hat. */
  lemma BoostScenarioReachesLevelTwo(data: UserData, stats: UserHealthStats)
    requires data.xp == 90 && data.level == 1 && data.unlockedCustomizations == []
    ensures ApplyHealthAndXpBoosts(data, 0.0, 20, stats).data.xp == 110
    ensures ApplyHealthAndXpBoosts(data, 0.0, 20, stats).data.level == 2
    ensures ApplyHealthAndXpBoosts(data, 0.0, 20, stats).data.unlockedCustomizations == ["party_hat"]
  {
    var t := ApplyHealthAndXpBoosts(data, 0.0, 20, stats);
    assert LevelWalk(2, 110) == WalkResult(2, []);
    assert AtLevel(Customizations, 2) == [Customizations[0]];
    assert LevelWalk(1, 110).unlocked == [Customizations[0]];
    assert Ids([Customizations[0]]) == ["party_hat"];
    assert Dedupe(["party_hat"]) == ["party_hat"];
  }
}

=== FILE: clock.dfy ===
/** Time as the engine sees it: integer millisecond timestamps, a calendar-day
    index and an hour of day. Days are fixed 24-hour blocks (no time zones or DST). */
module Clock {

  const MsPerHour: int := 3600000
  const MsPerDay: int := 86400000

  /** The calendar day a timestamp falls on (floor division). */
  function Day(t: int): int
  {
    t / MsPerDay
  }

  /** date-fns isSameDay over day indices. */
  predicate SameDay(a: int, b: int)
  {
    Day(a) == Day(b)
  }

  /** Date.getHours() of a timestamp. */
  function HourOf(t: int): (h: int)
    ensures 0 <= h < 24
  {
    (t % MsPerDay) / MsPerHour
  }

  /** Whole hours elapsed between two timestamps, as Math.floor of the quotient. */
  function HoursBetween(from: int, to: int): (h: int)
    ensures h > 0 ==> to - from >= MsPerHour
    ensures h <= 0 ==> to - from < MsPerHour
  {
    (to - from) / MsPerHour
  }

  /** A later timestamp never falls on an earlier day. */
  lemma DayMonotone(a: int, b: int)
    requires a <= b
    ensures Day(a) <= Day(b)
  {
    var qa, ra := a / MsPerDay, a % MsPerDay;
    var qb, rb := b / MsPerDay, b % MsPerDay;
    assert a == qa * MsPerDay + ra && 0 <= ra < MsPerDay;
    assert b == qb * MsPerDay + rb && 0 <= rb < MsPerDay;
  }

  /** subDays(t, 1) lands on the previous calendar day. */
  lemma DayBefore(t: int)
    ensures Day(t - MsPerDay) == Day(t) - 1
  {
    var q, r := t / MsPerDay, t % MsPerDay;
    assert t == q * MsPerDay + r && 0 <= r < MsPerDay;
    assert t - MsPerDay == (q - 1) * MsPerDay + r;
  }
}

=== FILE: constants.dfy ===
/** Static data: the leveling table, the level-bound customizations and the
    habit list a new buddy starts with. */
module Constants {
  import opened Types
  import opened Clock

  /** Cumulative XP needed for each level; index 0 is level 1. */
  const LevelThresholds: seq<int> := [0, 100, 250, 500, 800, 1200, 1700, 2300, 3000, 4000]

  /** The highest level, one per threshold. */
  const MaxLevel: int := 10

  datatype Customization = Customization(id: string, level: int, name: string)

  /** The unlockable items, in declaration order. */
  const Customizations: seq<Customization> := [
    Customization("party_hat", 2, "Party Hat"),
    Customization("sunglasses", 5, "Cool Shades")
  ]

  /** The starting habit list; `loadTime` is when the module was loaded
      (the habit is back-dated five hours from it). */
  function DefaultHabits(loadTime: int): (hs: seq<Habit>)
    ensures |hs| == 1
    ensures hs[0].id == 1 && !hs[0].isNegative && hs[0].negativeStreak == None
    ensures hs[0].lastCompleted < loadTime
  {
    [Habit(1, "Drink Water", loadTime - 5 * MsPerHour, false, None, None)]
  }

  ghost predicate StrictlyIncreasing(s: seq<int>)
  {
    forall i, j :: 0 <= i < j < |s| ==> s[i] < s[j]
  }

  /** The table has one threshold per level, starts at 0 and strictly increases. */
  lemma ThresholdsWellFormed()
    ensures |LevelThresholds| == MaxLevel
    ensures LevelThresholds[0] == 0
    ensures StrictlyIncreasing(LevelThresholds)
  {
  }

  /** Every customization is bound to a level the level walk can reach, and ids are distinct. */
  lemma CustomizationsReachable()
    ensures forall i :: 0 <= i < |Customizations| ==> 2 <= Customizations[i].level <= MaxLevel
    ensures forall i, j :: 0 <= i < j < |Customizations| ==> Customizations[i].id != Customizations[j].id
  {
  }

  /** How many entries of `s` are at most `x`. */
  function CountAtMost(s: seq<int>, x: int): (n: nat)
    ensures n <= |s|
  {
    if |s| == 0 then 0 else (if s[0] <= x then 1 else 0) + CountAtMost(s[1..], x)
  }

  /** The reference level for an XP total: the number of thresholds it has reached,
      i.e. the largest level whose threshold is at most `xp`. */
  function LevelOf(xp: int): int
  {
    CountAtMost(LevelThresholds, xp)
  }

  /** In a strictly increasing sequence, the count of entries at most `x` is the
      unique cut point `k` with s[k-1] <= x < s[k]. */
  lemma {:induction false} CountAtMostIsCut(s: seq<int>, x: int, k: int)
    requires StrictlyIncreasing(s)
    requires 0 <= k <= |s|
    requires k == 0 || s[k - 1] <= x
    requires k == |s| || x < s[k]
    ensures CountAtMost(s, x) == k
    decreases |s|
  {
    if |s| > 0 {
      var t := s[1..];
      assert StrictlyIncreasing(t) by {
        forall i, j | 0 <= i < j < |t| ensures t[i] < t[j] {
          assert t[i] == s[i + 1] && t[j] == s[j + 1];
        }
      }
      if k == 0 {
        assert x < s[0];
        CountAtMostIsCut(t, x, 0);
      } else {
        if k > 1 { assert t[k - 2] == s[k - 1]; }
        if k < |s| { assert t[k - 1] == s[k]; }
        CountAtMostIsCut(t, x, k - 1);
      }
    }
  }

  /** The count of entries at most `x` is a cut point of a strictly increasing sequence. */
  lemma {:induction false} CountAtMostBrackets(s: seq<int>, x: int)
    requires StrictlyIncreasing(s)
    ensures CountAtMost(s, x) == 0 || s[CountAtMost(s, x) - 1] <= x
    ensures CountAtMost(s, x) == |s| || x < s[CountAtMost(s, x)]
    decreases |s|
  {
    if |s| > 0 {
      var t := s[1..];
      assert StrictlyIncreasing(t) by {
        forall i, j | 0 <= i < j < |t| ensures t[i] < t[j] {
          assert t[i] == s[i + 1] && t[j] == s[j + 1];
        }
      }
      CountAtMostBrackets(t, x);
      var m := CountAtMost(t, x);
      if s[0] <= x {
        assert CountAtMost(s, x) == m + 1;
        if m > 0 { assert s[m] == t[m - 1]; }
        if m < |t| { assert s[m + 1] == t[m]; }
      }
    }
  }

  /** The reference level of any non-negative XP total lies in 1..10 and brackets it. */
  lemma LevelOfBrackets(xp: int)
    requires xp >= 0
    ensures 1 <= LevelOf(xp) <= MaxLevel
    ensures LevelThresholds[LevelOf(xp) - 1] <= xp
    ensures LevelOf(xp) == MaxLevel || xp < LevelThresholds[LevelOf(xp)]
  {
    ThresholdsWellFormed();
    CountAtMostBrackets(LevelThresholds, xp);
  }
}

=== FILE: daily.dfy ===
/** The once-per-calendar-day intents: vitamins, physical activity and sleep. */
module DailyLogs {
  import opened Types
  import opened Clock
  import opened Boost
  import opened Invariant

  /** A booster shrinks the decay multiplier by a quarter, never below 0.25. */
  function ShrinkMultiplier(m: real): (r: real)
    ensures r >= MinDecayMultiplier
    ensures m >= MinDecayMultiplier ==> r <= m
    ensures m * 0.75 >= MinDecayMultiplier ==> r == m * 0.75
  {
    Max(MinDecayMultiplier, m * 0.75)
  }

  /** handleLogVitamins: a no-op when vitamins were already logged today; otherwise
      gut +10 (capped at 100), the multiplier shrinks and the log time is stamped; nothing
      outside the boost, the multiplier and the stamp changes. */
  function LogVitamins(data: UserData, now: int): (t: Transition)
    ensures SameDay(data.lastVitaminLog, now) ==> t == Transition(data, [])
    ensures !SameDay(data.lastVitaminLog, now) ==>
              && t.data.userHealth.gut == Min(100.0, data.userHealth.gut + 10.0)
              && t.data.userHealth.hydration == data.userHealth.hydration
              && t.data.userHealth.activity == data.userHealth.activity
              && t.data.userHealth.mental == data.userHealth.mental
              && t.data.decayMultiplier == Max(MinDecayMultiplier, 0.75 * data.decayMultiplier)
              && t.data.lastVitaminLog == now
              && WalkedLevel(data, t.data)
              && t.signals == LevelUpSignals(data.level, t.data.xp)
              && t.data.xp == data.xp
              && (InPercent(data.health) ==> t.data.health == data.health)
              && t.data.userHealth.overall == OverallOf(t.data.userHealth)
              && t.data == data.(health := t.data.health, xp := t.data.xp, userHealth := t.data.userHealth,
                                 level := t.data.level, unlockedCustomizations := t.data.unlockedCustomizations,
                                 decayMultiplier := t.data.decayMultiplier, lastVitaminLog := now)
  {
    if SameDay(data.lastVitaminLog, now) then Transition(data, [])
    else
      var stats := data.userHealth.(gut := Min(100.0, data.userHealth.gut + 10.0));
      var boosted := ApplyHealthAndXpBoosts(data, 0.0, 0, stats);
      Transition(
        boosted.data.(decayMultiplier := ShrinkMultiplier(data.decayMultiplier), lastVitaminLog := now),
        boosted.signals)
  }

  /** handleLogPhysicalActivity: as vitamins, feeding activity instead of gut. */
  function LogPhysicalActivity(data: UserData, now: int): (t: Transition)
    ensures SameDay(data.lastPhysicalActivityLog, now) ==> t == Transition(data, [])
    ensures !SameDay(data.lastPhysicalActivityLog, now) ==>
              && t.data.userHealth.activity == Min(100.0, data.userHealth.activity + 10.0)
              && t.data.userHealth.hydration == data.userHealth.hydration
              && t.data.userHealth.gut == data.userHealth.gut
              && t.data.userHealth.mental == data.userHealth.mental
              && t.data.decayMultiplier == Max(MinDecayMultiplier, 0.75 * data.decayMultiplier)
              && t.data.lastPhysicalActivityLog == now
              && WalkedLevel(data, t.data)
              && t.signals == LevelUpSignals(data.level, t.data.xp)
              && t.data.xp == data.xp
              && (InPercent(data.health) ==> t.data.health == data.health)
              && t.data.userHealth.overall == OverallOf(t.data.userHealth)
              && t.data == data.(health := t.data.health, xp := t.data.xp, userHealth := t.data.userHealth,
                                 level := t.data.level, unlockedCustomizations := t.data.unlockedCustomizations,
                                 decayMultiplier := t.data.decayMultiplier, lastPhysicalActivityLog := now)
  {
    if SameDay(data.lastPhysicalActivityLog, now) then Transition(data, [])
    else
      var stats := data.userHealth.(activity := Min(100.0, data.userHealth.activity + 10.0));
      var boosted := ApplyHealthAndXpBoosts(data, 0.0, 0, stats);
      Transition(
        boosted.data.(decayMultiplier := ShrinkMultiplier(data.decayMultiplier), lastPhysicalActivityLog := now),
        boosted.signals)
  }

  /** On a valid state a booster moves neither XP, level nor health (a zero boost walks no level). */
  lemma BoostersKeepXpLevelHealth(data: UserData, now: int)
    requires Valid(data)
    ensures LogVitamins(data, now).data.xp == data.xp
    ensures LogVitamins(data, now).data.level == data.level
    ensures LogVitamins(data, now).data.health == data.health
    ensures LogVitamins(data, now).signals == []
    ensures LogPhysicalActivity(data, now).data.xp == data.xp
    ensures LogPhysicalActivity(data, now).data.level == data.level
    ensures LogPhysicalActivity(data, now).data.health == data.health
    ensures LogPhysicalActivity(data, now).signals == []
  {
  }

  /** A second booster of the same kind on the same day changes nothing. */
  lemma BoostersOncePerDay(data: UserData, now: int, later: int)
    requires SameDay(now, later)
    ensures LogVitamins(LogVitamins(data, now).data, later) == Transition(LogVitamins(data, now).data, [])
    ensures LogPhysicalActivity(LogPhysicalActivity(data, now).data, later) ==
              Transition(LogPhysicalActivity(data, now).data, [])
  {
  }

  /** Vitamins then physical activity on a fresh day take a full multiplier to 0.5625. */
  lemma BoostersCompound(data: UserData, now: int)
    requires data.decayMultiplier == 1.0
    requires !SameDay(data.lastVitaminLog, now) && !SameDay(data.lastPhysicalActivityLog, now)
    ensures LogPhysicalActivity(LogVitamins(data, now).data, now).data.decayMultiplier == 0.5625
  {
  }

  /** Good sleep is quality at least 3 and at least 7 hours. */
  predicate IsGoodSleep(quality: int, hours: real)
  {
    quality >= 3 && hours >= 7.0
  }

  /** The health change the sleep handler passes to the boost: +5 good, -5 poor. */
  function SleepHealthDelta(good: bool): real
  {
    if good then 5.0 else -5.0
  }

  /** Sleep debt after a log: one less (floored at 0) for good sleep, one more for poor. */
  function NextSleepDebt(debt: int, good: bool): (r: int)
    ensures good ==> r == MaxInt(0, debt - 1)
    ensures !good ==> r == debt + 1
    ensures debt >= 0 ==> r >= 0
  {
    if good then MaxInt(0, debt - 1) else debt + 1
  }

  /** slice(-n) for n >= 1: the last `n` entries (all of them when there are fewer). */
  function LastN<T>(s: seq<T>, n: nat): (r: seq<T>)
    ensures |r| == MinInt(n, |s|)
    ensures forall i :: 0 <= i < |r| ==> r[i] == s[|s| - |r| + i]
  {
    if |s| <= n then s else s[|s| - n..]
  }

  /** handleLogSleep: a no-op when sleep was already logged today. Otherwise good sleep
      pays off one point of sleep debt and gives +5 health and +10 mental; poor sleep adds
      a point of debt and costs 5 health; both give 15 XP; the entry is appended to the log,
      which keeps its newest 30 entries; nothing outside the boost and the sleep fields changes. */
  function LogSleep(data: UserData, quality: int, hours: real, now: int): (t: Transition)
    ensures SameDay(data.lastSleepLog, now) ==> t == Transition(data, [])
    ensures !SameDay(data.lastSleepLog, now) ==>
              && t.data.sleepDebt == (if IsGoodSleep(quality, hours) then MaxInt(0, data.sleepDebt - 1) else data.sleepDebt + 1)
              && t.data.xp == data.xp + 15
              && t.data.userHealth.mental == (if IsGoodSleep(quality, hours) then Min(100.0, data.userHealth.mental + 10.0)
                                              else Min(100.0, data.userHealth.mental))
              && t.data.userHealth.hydration == data.userHealth.hydration
              && t.data.userHealth.activity == data.userHealth.activity
              && t.data.userHealth.gut == data.userHealth.gut
              && t.data.userHealth.overall == OverallOf(t.data.userHealth)
              && t.data.sleepLogs == LastN(data.sleepLogs + [SleepLog(now, quality, hours)], MaxSleepLogs as nat)
              && |t.data.sleepLogs| <= MaxSleepLogs
              && t.data.sleepLogs[|t.data.sleepLogs| - 1] == SleepLog(now, quality, hours)
              && t.data.lastSleepLog == now
              && WalkedLevel(data, t.data)
              && t.signals == LevelUpSignals(data.level, t.data.xp)
              && t.data == data.(health := t.data.health, xp := t.data.xp, userHealth := t.data.userHealth,
                                 level := t.data.level, unlockedCustomizations := t.data.unlockedCustomizations,
                                 sleepDebt := t.data.sleepDebt, lastSleepLog := now, sleepLogs := t.data.sleepLogs)
  {
    if SameDay(data.lastSleepLog, now) then Transition(data, [])
    else
      var good := IsGoodSleep(quality, hours);
      var mental := Min(100.0, data.userHealth.mental + (if good then 10.0 else 0.0));
      var boosted := ApplyHealthAndXpBoosts(data, SleepHealthDelta(good), 15, data.userHealth.(mental := mental));
      Transition(
        boosted.data.(sleepDebt := NextSleepDebt(data.sleepDebt, good),
                      lastSleepLog := now,
                      sleepLogs := LastN(data.sleepLogs + [SleepLog(now, quality, hours)], MaxSleepLogs as nat)),
        boosted.signals)
  }

  /** Health after a sleep log: +5 for good sleep, -5 for poor, kept within 0..100. */
  lemma SleepHealthEffect(data: UserData, quality: int, hours: real, now: int)
    requires InPercent(data.health)
    requires !SameDay(data.lastSleepLog, now)
    ensures IsGoodSleep(quality, hours) ==> LogSleep(data, quality, hours, now).data.health == Min(100.0, data.health + 5.0)
    ensures !IsGoodSleep(quality, hours) ==> LogSleep(data, quality, hours, now).data.health == Max(0.0, data.health - 5.0)
  {
  }

  /** As written, the boost only caps the top, so a poor-sleep log at health 3 leaves the
      buddy at -2, outside the documented 0..100 range. */
  lemma PoorSleepAsWrittenBreaksHealthFloor()
    ensures !IsGoodSleep(2, 5.0)
    ensures BoostHealthAsWritten(3.0, SleepHealthDelta(IsGoodSleep(2, 5.0))) == -2.0
  {
  }

  /** A second sleep log on the same day changes nothing. */
  lemma SleepOncePerDay(data: UserData, quality: int, hours: real, q2: int, h2: real, now: int, later: int)
    requires SameDay(now, later)
    ensures var once := LogSleep(data, quality, hours, now).data;
            LogSleep(once, q2, h2, later) == Transition(once, [])
  {
  }

  /** Vitamins keep the state valid. */
  lemma LogVitaminsPreservesValid(data: UserData, now: int)
    requires Valid(data)
    ensures Valid(LogVitamins(data, now).data)
  {
    if !SameDay(data.lastVitaminLog, now) {
      BoostPreservesValid(data, 0.0, 0, data.userHealth.(gut := Min(100.0, data.userHealth.gut + 10.0)));
    }
  }

  /** Physical activity keeps the state valid. */
  lemma LogPhysicalActivityPreservesValid(data: UserData, now: int)
    requires Valid(data)
    ensures Valid(LogPhysicalActivity(data, now).data)
  {
    if !SameDay(data.lastPhysicalActivityLog, now) {
      BoostPreservesValid(data, 0.0, 0, data.userHealth.(activity := Min(100.0, data.userHealth.activity + 10.0)));
    }
  }

  lemma AppendKeepsIncreasing(logs: seq<SleepLog>, entry: SleepLog)
    requires IncreasingDays(logs)
    requires |logs| > 0 ==> Day(logs[|logs| - 1].date) < Day(entry.date)
    ensures IncreasingDays(logs + [entry])
  {
    var all := logs + [entry];
    forall i, j | 0 <= i < j < |all| ensures Day(all[i].date) < Day(all[j].date) {
      if j == |logs| && i < |logs| - 1 {
        assert Day(logs[i].date) < Day(logs[|logs| - 1].date);
      }
    }
  }

  lemma SuffixKeepsIncreasing(logs: seq<SleepLog>, n: nat)
    requires IncreasingDays(logs)
    ensures IncreasingDays(LastN(logs, n))
  {
    if |logs| > n {
      var k := |logs| - n;
      assert LastN(logs, n) == logs[k..];
      forall i, j | 0 <= i < j < n ensures Day(logs[k..][i].date) < Day(logs[k..][j].date) {
        assert logs[k..][i] == logs[k + i] && logs[k..][j] == logs[k + j];
      }
    }
  }

  /** Keeping the last entries of a log whose qualities are all on the 1..5 scale, with
      one more such entry appended, keeps every quality on the scale. */
  lemma AppendedQualitiesInRange(logs: seq<SleepLog>, entry: SleepLog, n: nat)
    requires forall i :: 0 <= i < |logs| ==> 1 <= logs[i].quality <= 5
    requires 1 <= entry.quality <= 5
    ensures forall i :: 0 <= i < |LastN(logs + [entry], n)| ==> 1 <= LastN(logs + [entry], n)[i].quality <= 5
  {
    var all := logs + [entry];
    var r := LastN(all, n);
    forall i | 0 <= i < |r| ensures 1 <= r[i].quality <= 5 {
      var k := |all| - |r| + i;
      assert r[i] == all[k];
      if k < |logs| {
        assert all[k] == logs[k];
      }
    }
  }

  /** Keeping at least one entry of a non-empty log keeps its newest entry last. */
  lemma LastNKeepsNewest<T>(s: seq<T>, n: nat)
    requires n >= 1 && |s| > 0
    ensures |LastN(s, n)| > 0 && LastN(s, n)[|LastN(s, n)| - 1] == s[|s| - 1]
  {
  }

  /** Appending an entry on a later day than the newest one and keeping the last 30
      leaves a well-formed sleep log. */
  lemma AppendSleepLogValid(logs: seq<SleepLog>, last: int, entry: SleepLog)
    requires SleepLogsValid(logs, last)
    requires 1 <= entry.quality <= 5
    requires Day(last) < Day(entry.date)
    ensures SleepLogsValid(LastN(logs + [entry], MaxSleepLogs as nat), entry.date)
  {
    var all := logs + [entry];
    AppendKeepsIncreasing(logs, entry);
    SuffixKeepsIncreasing(all, MaxSleepLogs as nat);
    AppendedQualitiesInRange(logs, entry, MaxSleepLogs as nat);
    LastNKeepsNewest(all, MaxSleepLogs as nat);
  }

  /** A first log of the day is the shared boost followed by the sleep bookkeeping. */
  lemma LogSleepSplits(data: UserData, quality: int, hours: real, now: int)
    requires !SameDay(data.lastSleepLog, now)
    ensures var good := IsGoodSleep(quality, hours);
            var mental := Min(100.0, data.userHealth.mental + (if good then 10.0 else 0.0));
            LogSleep(data, quality, hours, now).data
              == ApplyHealthAndXpBoosts(data, SleepHealthDelta(good), 15, data.userHealth.(mental := mental)).data
                   .(sleepDebt := NextSleepDebt(data.sleepDebt, good), lastSleepLog := now,
                     sleepLogs := LastN(data.sleepLogs + [SleepLog(now, quality, hours)], MaxSleepLogs as nat))
  {
  }

  /** Logging sleep (quality on its 1..5 scale, clock not running backwards) keeps the state
      valid: health stays within 0..100 even after poor sleep, the log keeps at most one
      entry per day and at most 30 entries. */
  lemma LogSleepPreservesValid(data: UserData, quality: int, hours: real, now: int)
    requires Valid(data)
    requires 1 <= quality <= 5
    requires data.lastSleepLog <= now
    ensures Valid(LogSleep(data, quality, hours, now).data)
  {
    if !SameDay(data.lastSleepLog, now) {
      var good := IsGoodSleep(quality, hours);
      var mental := Min(100.0, data.userHealth.mental + (if good then 10.0 else 0.0));
      var boosted := ApplyHealthAndXpBoosts(data, SleepHealthDelta(good), 15, data.userHealth.(mental := mental));
      var logs := LastN(data.sleepLogs + [SleepLog(now, quality, hours)], MaxSleepLogs as nat);
      BoostPreservesValid(data, SleepHealthDelta(good), 15, data.userHealth.(mental := mental));
      DayMonotone(data.lastSleepLog, now);
      AppendSleepLogValid(data.sleepLogs, data.lastSleepLog, SleepLog(now, quality, hours));
      ValidWithSleepLogs(boosted.data, NextSleepDebt(data.sleepDebt, good), logs, now);
      LogSleepSplits(data, quality, hours, now);
    }
  }
}

=== FILE: dashboard.dfy ===
/** The dashboard's XP progress bar. */
module Dashboard {
  import opened Types
  import opened Constants
  import opened Invariant
  import opened Habits

  /** Percentage of the way from the current level's threshold to the next. At the top level
      the next threshold falls back to the XP total itself, and a zero-width bracket shows 100. */
  function XpProgress(level: int, xp: int): (p: real)
    requires 1 <= level <= MaxLevel
    ensures level == MaxLevel ==> p == 100.0
    ensures level < MaxLevel && LevelThresholds[level - 1] <= xp < LevelThresholds[level] ==> 0.0 <= p < 100.0
    ensures level < MaxLevel ==> (p == 0.0 <==> xp == LevelThresholds[level - 1])
    ensures level < MaxLevel ==> (p < 0.0 <==> xp < LevelThresholds[level - 1])
  {
    var currentLevelXp := LevelThresholds[level - 1];
    var nextLevelXp := if level < MaxLevel then LevelThresholds[level] else xp;
    var xpForCurrentLevel := xp - currentLevelXp;
    var xpToNextLevel := nextLevelXp - currentLevelXp;
    if xpToNextLevel > 0 then
      assert level == MaxLevel ==> xpForCurrentLevel == xpToNextLevel;
      Ratio(xpForCurrentLevel, xpToNextLevel) * 100.0
    else 100.0
  }

  /** An integer ratio as a real, with the bounds the progress figures rely on. */
  function Ratio(a: int, b: int): (q: real)
    requires b > 0
    ensures q * b as real == a as real
    ensures a == b ==> q == 1.0
    ensures 0 <= a <= b ==> 0.0 <= q <= 1.0
    ensures 0 <= a < b ==> q < 1.0
    ensures a < 0 <==> q < 0.0
    ensures a == 0 <==> q == 0.0
  {
    a as real / b as real
  }

  /** In a valid state below the top level the bar is never full: level is never under what
      XP has earned, so XP is below the next threshold. */
  lemma ProgressBelowFullWhenValid(data: UserData)
    requires Valid(data)
    requires data.level < MaxLevel
    ensures XpProgress(data.level, data.xp) < 100.0
  {
  }

  /** Because relapses lower XP but never the level, the bar can go negative: a level-2
      buddy with under 150 XP who relapses drops below the level-2 threshold of 100. */
  lemma RelapseCanDriveProgressNegative(data: UserData, habitId: int, now: int)
    requires Valid(data)
    requires data.level == 2 && data.xp < 150
    requires FindHabit(data.habits, habitId).Some?
    requires data.habits[FindHabit(data.habits, habitId).value].isNegative
    ensures XpProgress(LogHabit(data, habitId, now).data.level, LogHabit(data, habitId, now).data.xp) < 0.0
  {
    RelapseEffects(data, habitId, now);
  }
}

=== FILE: decay.dfy ===
/** The hourly health-decay rate: additive risk terms scaled by a lifestyle factor
    and by the booster-controlled decay multiplier. */
module DecayManager {
  import opened Types

  /** Some compulsory habit is still open (Array.prototype.some). */
  function AnyIncomplete(chs: seq<CompulsoryHabit>): (b: bool)
    ensures b <==> exists i :: 0 <= i < |chs| && !chs[i].completed
  {
    if |chs| == 0 then false
    else !chs[0].completed || AnyIncomplete(chs[1..])
  }

  /** Base decay: 2 while a compulsory habit is open, otherwise 1. */
  function BaseDecay(chs: seq<CompulsoryHabit>): real
  {
    if AnyIncomplete(chs) then 2.0 else 1.0
  }

  /** Half a point for a sub-stat below the 50% threshold. */
  function LowStatPenalty(x: real): real
  {
    if x < 50.0 then 0.5 else 0.0
  }

  /** Doses that should have been taken by `hour`: floor(hour / (24 / dosesPerDay)). */
  function ExpectedDoses(hour: int, dosesPerDay: int): int
    requires dosesPerDay > 0
  {
    ((hour as real) / (24.0 / dosesPerDay as real)).Floor
  }

  /** The missed-dose penalty: 1 when tracking is on and fewer doses were taken
      than the hour of day calls for. */
  function MedsPenalty(enabled: bool, dosesPerDay: int, dosesTaken: int, hour: int): real
  {
    if enabled && dosesPerDay > 0 && dosesTaken < ExpectedDoses(hour, dosesPerDay) then 1.0 else 0.0
  }

  /** The lifestyle factor from the survey's sedentary hours; neutral without a survey. */
  function SedentaryFactor(survey: Option<OnboardingSurveyData>): (f: real)
    ensures f == 0.75 || f == 1.0 || f == 1.5
    ensures survey.None? ==> f == 1.0
  {
    match survey
    case None => 1.0
    case Some(sv) =>
      if sv.sedentaryHours > 10.0 then 1.5
      else if sv.sedentaryHours < 4.0 then 0.75
      else 1.0
  }

  /** More sedentary hours never lower the lifestyle factor. */
  lemma SedentaryFactorMonotone(a: OnboardingSurveyData, b: OnboardingSurveyData)
    requires a.sedentaryHours <= b.sedentaryHours
    ensures SedentaryFactor(Some(a)) <= SedentaryFactor(Some(b))
    ensures SedentaryFactor(Some(b)) == 1.5 <==> b.sedentaryHours > 10.0
    ensures SedentaryFactor(Some(a)) == 0.75 <==> a.sedentaryHours < 4.0
  {
  }

  /** The sum of the additive risk terms. */
  function RiskSum(data: UserData, hour: int): real
  {
    BaseDecay(data.compulsoryHabits)
    + LowStatPenalty(data.userHealth.gut)
    + LowStatPenalty(data.userHealth.activity)
    + data.sleepDebt as real * 0.25
    + MedsPenalty(data.medsEnabled, data.medsDosesPerDay, data.medsDosesTakenToday, hour)
  }

  /** calculateDecayRate: health lost per elapsed hour at hour-of-day `hour`.
      It is never negative while sleep debt and the multiplier are not. */
  function CalculateDecayRate(data: UserData, hour: int): (rate: real)
    ensures data.sleepDebt >= 0 && data.decayMultiplier >= 0.0 ==> rate >= 0.0
    ensures data.sleepDebt >= 0 && data.decayMultiplier > 0.0 ==> rate > 0.0
  {
    RiskSum(data, hour) * SedentaryFactor(data.onboardingSurvey) * data.decayMultiplier
  }

  /** The integer form of the expected-dose count: hour * dosesPerDay / 24, rounded down. */
  lemma ExpectedDosesIntegerForm(hour: int, dosesPerDay: int)
    requires dosesPerDay > 0 && hour >= 0
    ensures ExpectedDoses(hour, dosesPerDay) == (hour * dosesPerDay) / 24
  {
    var p := dosesPerDay as real;
    var h := hour as real;
    assert h / (24.0 / p) == (h * p) / 24.0;
    var q := (hour * dosesPerDay) / 24;
    var r := (hour * dosesPerDay) % 24;
    assert hour * dosesPerDay == q * 24 + r && 0 <= r < 24;
    assert (h * p) / 24.0 == q as real + r as real / 24.0;
  }

  /** Within a day (hour 0..23) fewer than dosesPerDay doses are ever expected. */
  lemma ExpectedDosesBelowDaily(hour: int, dosesPerDay: int)
    requires dosesPerDay > 0 && 0 <= hour < 24
    ensures 0 <= ExpectedDoses(hour, dosesPerDay) < dosesPerDay
  {
    ExpectedDosesIntegerForm(hour, dosesPerDay);
    assert hour * dosesPerDay < 24 * dosesPerDay;
  }

  /** The missed-dose penalty applies exactly when tracking is on, a schedule exists and
      the integer dose count for the hour exceeds the doses taken. */
  lemma MedsPenaltyCharacterization(enabled: bool, dosesPerDay: int, dosesTaken: int, hour: int)
    requires hour >= 0
    ensures MedsPenalty(enabled, dosesPerDay, dosesTaken, hour) == 1.0 <==>
              enabled && dosesPerDay > 0 && dosesTaken < (hour * dosesPerDay) / 24
    ensures MedsPenalty(enabled, dosesPerDay, dosesTaken, hour) == 0.0 ||
            MedsPenalty(enabled, dosesPerDay, dosesTaken, hour) == 1.0
  {
    if dosesPerDay > 0 {
      ExpectedDosesIntegerForm(hour, dosesPerDay);
    }
  }

  /** Once the day's doses are all taken there is no missed-dose penalty at any hour of the day. */
  lemma NoMedsPenaltyWhenAllTaken(enabled: bool, dosesPerDay: int, dosesTaken: int, hour: int)
    requires 0 <= hour < 24
    requires dosesTaken >= dosesPerDay
    ensures MedsPenalty(enabled, dosesPerDay, dosesTaken, hour) == 0.0
  {
    if dosesPerDay > 0 {
      ExpectedDosesBelowDaily(hour, dosesPerDay);
    }
  }

  /** The rate is the risk sum scaled by the lifestyle factor and the multiplier,
      with the base term exactly 2 or 1 by whether a compulsory habit is open and
      each low sub-stat adding exactly a half. */
  lemma DecayRateDecomposition(data: UserData, hour: int)
    ensures BaseDecay(data.compulsoryHabits) == 2.0 <==>
              exists i :: 0 <= i < |data.compulsoryHabits| && !data.compulsoryHabits[i].completed
    ensures BaseDecay(data.compulsoryHabits) == 1.0 <==>
              forall i :: 0 <= i < |data.compulsoryHabits| ==> data.compulsoryHabits[i].completed
    ensures LowStatPenalty(data.userHealth.gut) == 0.5 <==> data.userHealth.gut < 50.0
    ensures LowStatPenalty(data.userHealth.activity) == 0.5 <==> data.userHealth.activity < 50.0
    ensures CalculateDecayRate(data, hour) ==
              RiskSum(data, hour) * SedentaryFactor(data.onboardingSurvey) * data.decayMultiplier
  {
  }

  /** One more point of sleep debt raises the rate by 0.25 x factor x multiplier. */
  lemma SleepDebtRaisesRate(data: UserData, hour: int)
    requires data.decayMultiplier > 0.0
    ensures CalculateDecayRate(data.(sleepDebt := data.sleepDebt + 1), hour) ==
              CalculateDecayRate(data, hour) + 0.25 * SedentaryFactor(data.onboardingSurvey) * data.decayMultiplier
    ensures CalculateDecayRate(data.(sleepDebt := data.sleepDebt + 1), hour) > CalculateDecayRate(data, hour)
  {
    var f := SedentaryFactor(data.onboardingSurvey);
    var m := data.decayMultiplier;
    var d' := data.(sleepDebt := data.sleepDebt + 1);
    assert RiskSum(d', hour) == RiskSum(data, hour) + 0.25;
    assert (RiskSum(data, hour) + 0.25) * f * m == RiskSum(data, hour) * f * m + 0.25 * f * m;
    assert 0.25 * f * m > 0.0;
  }

  /** Opening a compulsory habit when all were done raises the rate by factor x multiplier. */
  lemma IncompleteCompulsoryRaisesRate(data: UserData, open: seq<CompulsoryHabit>, hour: int)
    requires data.decayMultiplier > 0.0
    requires forall i :: 0 <= i < |data.compulsoryHabits| ==> data.compulsoryHabits[i].completed
    requires exists i :: 0 <= i < |open| && !open[i].completed
    ensures CalculateDecayRate(data.(compulsoryHabits := open), hour) ==
              CalculateDecayRate(data, hour) + SedentaryFactor(data.onboardingSurvey) * data.decayMultiplier
    ensures CalculateDecayRate(data.(compulsoryHabits := open), hour) > CalculateDecayRate(data, hour)
  {
    var f := SedentaryFactor(data.onboardingSurvey);
    var m := data.decayMultiplier;
    var d' := data.(compulsoryHabits := open);
    assert RiskSum(d', hour) == RiskSum(data, hour) + 1.0;
    assert (RiskSum(data, hour) + 1.0) * f * m == RiskSum(data, hour) * f * m + f * m;
    assert f * m > 0.0;
  }

  /** Dropping gut health below 50 raises the rate by half of factor x multiplier. */
  lemma LowGutRaisesRate(data: UserData, gut: real, hour: int)
    requires data.decayMultiplier > 0.0
    requires data.userHealth.gut >= 50.0 && gut < 50.0
    ensures CalculateDecayRate(data.(userHealth := data.userHealth.(gut := gut)), hour) ==
              CalculateDecayRate(data, hour) + 0.5 * SedentaryFactor(data.onboardingSurvey) * data.decayMultiplier
    ensures CalculateDecayRate(data.(userHealth := data.userHealth.(gut := gut)), hour) > CalculateDecayRate(data, hour)
  {
    var f := SedentaryFactor(data.onboardingSurvey);
    var m := data.decayMultiplier;
    var d' := data.(userHealth := data.userHealth.(gut := gut));
    assert RiskSum(d', hour) == RiskSum(data, hour) + 0.5;
    assert (RiskSum(data, hour) + 0.5) * f * m == RiskSum(data, hour) * f * m + 0.5 * f * m;
    assert 0.5 * f * m > 0.0;
  }

  /** Dropping activity below 50 raises the rate by half of factor x multiplier. */
  lemma LowActivityRaisesRate(data: UserData, activity: real, hour: int)
    requires data.decayMultiplier > 0.0
    requires data.userHealth.activity >= 50.0 && activity < 50.0
    ensures CalculateDecayRate(data.(userHealth := data.userHealth.(activity := activity)), hour) ==
              CalculateDecayRate(data, hour) + 0.5 * SedentaryFactor(data.onboardingSurvey) * data.decayMultiplier
    ensures CalculateDecayRate(data.(userHealth := data.userHealth.(activity := activity)), hour) > CalculateDecayRate(data, hour)
  {
    var f := SedentaryFactor(data.onboardingSurvey);
    var m := data.decayMultiplier;
    var d' := data.(userHealth := data.userHealth.(activity := activity));
    assert RiskSum(d', hour) == RiskSum(data, hour) + 0.5;
    assert (RiskSum(data, hour) + 0.5) * f * m == RiskSum(data, hour) * f * m + 0.5 * f * m;
    assert 0.5 * f * m > 0.0;
  }

  /** A missed dose (one fewer taken than the hour calls for) raises the rate by factor x multiplier. */
  lemma MissedDoseRaisesRate(data: UserData, hour: int)
    requires data.decayMultiplier > 0.0 && hour >= 0
    requires data.medsEnabled && data.medsDosesPerDay > 0
    requires data.medsDosesTakenToday == (hour * data.medsDosesPerDay) / 24
    requires data.medsDosesTakenToday > 0
    ensures CalculateDecayRate(data.(medsDosesTakenToday := data.medsDosesTakenToday - 1), hour) ==
              CalculateDecayRate(data, hour) + SedentaryFactor(data.onboardingSurvey) * data.decayMultiplier
  {
    var f := SedentaryFactor(data.onboardingSurvey);
    var m := data.decayMultiplier;
    var d' := data.(medsDosesTakenToday := data.medsDosesTakenToday - 1);
    ExpectedDosesIntegerForm(hour, data.medsDosesPerDay);
    assert MedsPenalty(true, data.medsDosesPerDay, data.medsDosesTakenToday, hour) == 0.0;
    assert MedsPenalty(true, data.medsDosesPerDay, data.medsDosesTakenToday - 1, hour) == 1.0;
    assert RiskSum(d', hour) == RiskSum(data, hour) + 1.0;
    assert (RiskSum(data, hour) + 1.0) * f * m == RiskSum(data, hour) * f * m + f * m;
  }
}

=== FILE: habits.dfy ===
/** Habit intents: logging a habit (completion or relapse), completing a
    compulsory habit and adding a habit. */
module Habits {
  import opened Types
  import opened Clock
  import opened Strings
  import opened Boost
  import opened Invariant

  /** Array.prototype.find over a sequence of ids: the index of the first occurrence of `id`. */
  function FirstIndex<T(==)>(ids: seq<T>, id: T): (r: Option<nat>)
    ensures r.Some? ==> r.value < |ids| && ids[r.value] == id
    ensures r.Some? ==> forall j :: 0 <= j < r.value ==> ids[j] != id
    ensures r.None? <==> forall j :: 0 <= j < |ids| ==> ids[j] != id
  {
    if |ids| == 0 then None
    else if ids[0] == id then Some(0)
    else match FirstIndex(ids[1..], id)
      case None => None
      case Some(k) => Some(k + 1)
  }

  /** The first habit with `id`. */
  function FindHabit(hs: seq<Habit>, id: int): (r: Option<nat>)
    ensures r.Some? ==> r.value < |hs| && hs[r.value].id == id
    ensures r.Some? ==> forall j :: 0 <= j < r.value ==> hs[j].id != id
    ensures r.None? <==> forall j :: 0 <= j < |hs| ==> hs[j].id != id
  {
    var ids := seq(|hs|, i requires 0 <= i < |hs| => hs[i].id);
    assert forall j :: 0 <= j < |hs| ==> ids[j] == hs[j].id;
    FirstIndex(ids, id)
  }

  /** The first compulsory habit with `id`. */
  function FindCompulsory(chs: seq<CompulsoryHabit>, id: string): (r: Option<nat>)
    ensures r.Some? ==> r.value < |chs| && chs[r.value].id == id
    ensures r.Some? ==> forall j :: 0 <= j < r.value ==> chs[j].id != id
    ensures r.None? <==> forall j :: 0 <= j < |chs| ==> chs[j].id != id
  {
    var ids := seq(|chs|, i requires 0 <= i < |chs| => chs[i].id);
    assert forall j :: 0 <= j < |chs| ==> ids[j] == chs[j].id;
    FirstIndex(ids, id)
  }

  /** Math.max over the lastCompleted of the positive habits; None when there are none. */
  function LatestPositiveCompletion(hs: seq<Habit>): (r: Option<int>)
    ensures r.None? <==> forall i :: 0 <= i < |hs| ==> hs[i].isNegative
    ensures r.Some? ==> exists i :: 0 <= i < |hs| && !hs[i].isNegative && hs[i].lastCompleted == r.value
    ensures r.Some? ==> forall i :: 0 <= i < |hs| && !hs[i].isNegative ==> hs[i].lastCompleted <= r.value
  {
    if |hs| == 0 then None
    else
      var rest := LatestPositiveCompletion(hs[1..]);
      assert forall i :: 1 <= i < |hs| ==> hs[i] == hs[1..][i - 1];
      if hs[0].isNegative then rest
      else match rest
        case None => Some(hs[0].lastCompleted)
        case Some(m) => Some(MaxInt(hs[0].lastCompleted, m))
  }

  /** Every habit with `id` gets `lastCompleted := now`. */
  function MarkCompleted(hs: seq<Habit>, id: int, now: int): (r: seq<Habit>)
    ensures |r| == |hs|
    ensures forall i :: 0 <= i < |hs| ==>
              r[i] == if hs[i].id == id then hs[i].(lastCompleted := now) else hs[i]
  {
    seq(|hs|, i requires 0 <= i < |hs| => if hs[i].id == id then hs[i].(lastCompleted := now) else hs[i])
  }

  /** Every habit with `id` gets `lastCompleted := now` and its negative streak reset to 0. */
  function MarkRelapsed(hs: seq<Habit>, id: int, now: int): (r: seq<Habit>)
    ensures |r| == |hs|
    ensures forall i :: 0 <= i < |hs| ==>
              r[i] == if hs[i].id == id then hs[i].(lastCompleted := now, negativeStreak := Some(0)) else hs[i]
  {
    seq(|hs|, i requires 0 <= i < |hs| =>
      if hs[i].id == id then hs[i].(lastCompleted := now, negativeStreak := Some(0)) else hs[i])
  }

  /** Every compulsory habit with `id` is marked completed. */
  function MarkCompulsoryDone(chs: seq<CompulsoryHabit>, id: string): (r: seq<CompulsoryHabit>)
    ensures |r| == |chs|
    ensures forall i :: 0 <= i < |chs| ==> r[i] == if chs[i].id == id then chs[i].(completed := true) else chs[i]
  {
    seq(|chs|, i requires 0 <= i < |chs| => if chs[i].id == id then chs[i].(completed := true) else chs[i])
  }

  /** The sub-stat updater of a positive habit, chosen by its lower-cased name:
      "water" feeds hydration by 15, otherwise "fiber" feeds gut by 5, otherwise activity
      rises by 10 and mental by 5; each capped at 100 and every other stat unchanged. */
  function HabitStatBoost(name: string, s: UserHealthStats): (r: UserHealthStats)
    ensures Mentions(name, "water") ==> r == s.(hydration := Min(100.0, s.hydration + 15.0))
    ensures !Mentions(name, "water") && Mentions(name, "fiber") ==> r == s.(gut := Min(100.0, s.gut + 5.0))
    ensures !Mentions(name, "water") && !Mentions(name, "fiber") ==>
              r == s.(activity := Min(100.0, s.activity + 10.0), mental := Min(100.0, s.mental + 5.0))
    ensures InPercent(s.hydration) && InPercent(s.activity) && InPercent(s.mental) && InPercent(s.gut) ==>
              InPercent(r.hydration) && InPercent(r.activity) && InPercent(r.mental) && InPercent(r.gut)
  {
    var lower := ToLower(name);
    ContainsIff(lower, "water");
    ContainsIff(lower, "fiber");
    if Contains(lower, "water") then s.(hydration := Min(100.0, s.hydration + 15.0))
    else if Contains(lower, "fiber") then s.(gut := Min(100.0, s.gut + 5.0))
    else s.(activity := Min(100.0, s.activity + 10.0), mental := Min(100.0, s.mental + 5.0))
  }

  /** The streak after a positive completion: one more only when today is a later
      calendar day than the latest positive completion before this one. */
  function NextStreak(data: UserData, now: int): int
  {
    match LatestPositiveCompletion(data.habits)
    case None => data.streak
    case Some(last) => if Day(now) > Day(last) then data.streak + 1 else data.streak
  }

  /** Every fifth streak day is celebrated; other completions are plain. */
  function CompletionReason(streak: int): ReasonCode
  {
    if streak >= 5 && streak % 5 == 0 then Streak else HabitComplete
  }

  /** handleLogHabit: an unknown id changes nothing; a negative habit records a relapse;
      a positive habit advances the streak, boosts and records the completion. */
  function LogHabit(data: UserData, habitId: int, now: int): (t: Transition)
    ensures FindHabit(data.habits, habitId).None? ==> t == Transition(data, [])
    ensures |t.data.habits| == |data.habits|
  {
    match FindHabit(data.habits, habitId)
    case None => Transition(data, [])
    case Some(i) =>
      var habit := data.habits[i];
      if habit.isNegative then
        Transition(
          data.(health := Max(0.0, data.health - 25.0),
                xp := MaxInt(0, data.xp - 50),
                habits := MarkRelapsed(data.habits, habitId, now),
                lastActive := now),
          [Notify(NegativeHabitRelapse)])
      else
        var newStreak := NextStreak(data, now);
        var boosted := ApplyHealthAndXpBoosts(data, 10.0, 20, HabitStatBoost(habit.name, data.userHealth));
        Transition(
          boosted.data.(habits := MarkCompleted(data.habits, habitId, now),
                        streak := newStreak,
                        lastActive := now),
          [Notify(CompletionReason(newStreak))] + boosted.signals)
  }

  /** A relapse costs 25 health and 50 XP (each floored at 0), stamps the habit and
      zeroes its negative streak, stamps the activity time, and changes nothing else:
      in particular streak, level and unlocks stay. */
  lemma RelapseEffects(data: UserData, habitId: int, now: int)
    requires FindHabit(data.habits, habitId).Some?
    requires data.habits[FindHabit(data.habits, habitId).value].isNegative
    ensures LogHabit(data, habitId, now).data.health == Max(0.0, data.health - 25.0)
    ensures LogHabit(data, habitId, now).data.xp == MaxInt(0, data.xp - 50)
    ensures LogHabit(data, habitId, now).data.streak == data.streak
    ensures LogHabit(data, habitId, now).data.level == data.level
    ensures LogHabit(data, habitId, now).data.unlockedCustomizations == data.unlockedCustomizations
    ensures LogHabit(data, habitId, now).data.userHealth == data.userHealth
    ensures forall i :: 0 <= i < |data.habits| ==>
              LogHabit(data, habitId, now).data.habits[i] ==
                if data.habits[i].id == habitId
                then data.habits[i].(lastCompleted := now, negativeStreak := Some(0))
                else data.habits[i]
    ensures LogHabit(data, habitId, now).data.lastActive == now
    ensures LogHabit(data, habitId, now).data ==
              data.(health := Max(0.0, data.health - 25.0), xp := MaxInt(0, data.xp - 50),
                    habits := LogHabit(data, habitId, now).data.habits, lastActive := now)
    ensures LogHabit(data, habitId, now).signals == [Notify(NegativeHabitRelapse)]
  {
  }

  /** A positive completion: the streak rises by one exactly when today is a later day than
      the latest earlier positive completion, and otherwise stays (it never resets); the
      reason is "streak" on every fifth day, followed by the level-up signal when the level
      rose; health +10 (capped), XP +20, the sub-stats as the habit's name selects; only the
      logged habit's lastCompleted changes, the activity time is stamped, and nothing else moves. */
  lemma PositiveCompletionEffects(data: UserData, habitId: int, now: int)
    requires FindHabit(data.habits, habitId).Some?
    requires !data.habits[FindHabit(data.habits, habitId).value].isNegative
    ensures LatestPositiveCompletion(data.habits).Some?
    ensures var last := LatestPositiveCompletion(data.habits).value;
            LogHabit(data, habitId, now).data.streak ==
              if Day(now) > Day(last) then data.streak + 1 else data.streak
    ensures LogHabit(data, habitId, now).data.streak >= data.streak
    ensures LogHabit(data, habitId, now).signals[0] ==
              Notify(if LogHabit(data, habitId, now).data.streak >= 5 &&
                        LogHabit(data, habitId, now).data.streak % 5 == 0 then Streak else HabitComplete)
    ensures LogHabit(data, habitId, now).data.xp == data.xp + 20
    ensures LogHabit(data, habitId, now).data.health == Min(100.0, data.health + 10.0) || data.health + 10.0 < 0.0
    ensures LogHabit(data, habitId, now).data.level >= data.level
    ensures WalkedLevel(data, LogHabit(data, habitId, now).data)
    ensures LogHabit(data, habitId, now).signals[1..] == LevelUpSignals(data.level, data.xp + 20)
    ensures forall i :: 0 <= i < |data.habits| ==>
              LogHabit(data, habitId, now).data.habits[i] ==
                if data.habits[i].id == habitId then data.habits[i].(lastCompleted := now) else data.habits[i]
    ensures var boost := HabitStatBoost(data.habits[FindHabit(data.habits, habitId).value].name, data.userHealth);
            var u := LogHabit(data, habitId, now).data.userHealth;
            && u.hydration == boost.hydration && u.activity == boost.activity
            && u.mental == boost.mental && u.gut == boost.gut && u.overall == OverallOf(u)
    ensures var t := LogHabit(data, habitId, now);
            t.data == data.(health := t.data.health, xp := t.data.xp, userHealth := t.data.userHealth,
                            level := t.data.level, unlockedCustomizations := t.data.unlockedCustomizations,
                            habits := t.data.habits, streak := t.data.streak, lastActive := now)
    ensures var t := LogHabit(data, habitId, now);
            && (|t.signals| == 1 <==> t.data.level == data.level)
            && (t.data.level > data.level ==> |t.signals| == 2 && t.signals[1].LevelUp? && t.signals[1].level == t.data.level)
  {
    var i := FindHabit(data.habits, habitId).value;
    var newStreak := NextStreak(data, now);
    var boosted := ApplyHealthAndXpBoosts(data, 10.0, 20, HabitStatBoost(data.habits[i].name, data.userHealth));
    var t := LogHabit(data, habitId, now);
    assert t.data == boosted.data.(habits := MarkCompleted(data.habits, habitId, now), streak := newStreak, lastActive := now);
    assert t.signals == [Notify(CompletionReason(newStreak))] + boosted.signals;
    assert t.signals[1..] == boosted.signals;
  }

  /** Two positive completions on the same calendar day raise the streak at most once:
      after the first, the latest completion is already today. */
  lemma SameDayCompletionsDoNotInflateStreak(data: UserData, first: int, second: int, now: int, later: int)
    requires FindHabit(data.habits, first).Some?
    requires !data.habits[FindHabit(data.habits, first).value].isNegative
    requires SameDay(now, later)
    ensures var mid := LogHabit(data, first, now).data;
            LogHabit(mid, second, later).data.streak == mid.streak
  {
    var mid := LogHabit(data, first, now).data;
    var i := FindHabit(data.habits, first).value;
    assert mid.habits[i].lastCompleted == now && !mid.habits[i].isNegative;
    match FindHabit(mid.habits, second)
    case None =>
    case Some(j) =>
      if !mid.habits[j].isNegative {
        var last := LatestPositiveCompletion(mid.habits).value;
        assert now <= last;
        DayMonotone(now, last);
      }
  }

  /** handleCompleteCompulsoryHabit: an unknown id changes nothing; otherwise +10 health
      and the habit's own XP reward, and every habit with that id is marked completed. */
  function CompleteCompulsoryHabit(data: UserData, habitId: string, now: int): (t: Transition)
    ensures FindCompulsory(data.compulsoryHabits, habitId).None? ==> t == Transition(data, [])
    ensures FindCompulsory(data.compulsoryHabits, habitId).Some? ==>
              && t.data.xp == data.xp + data.compulsoryHabits[FindCompulsory(data.compulsoryHabits, habitId).value].xp
              && t.data.lastActive == now
              && (InPercent(data.health) ==> t.data.health == Min(100.0, data.health + 10.0))
              && t.data.userHealth == WithOverall(data.userHealth)
              && t.data.level >= data.level
              && WalkedLevel(data, t.data)
              && t.signals == LevelUpSignals(data.level, t.data.xp)
              && |t.data.compulsoryHabits| == |data.compulsoryHabits|
              && (forall i :: 0 <= i < |data.compulsoryHabits| ==>
                    t.data.compulsoryHabits[i] ==
                      if data.compulsoryHabits[i].id == habitId then data.compulsoryHabits[i].(completed := true)
                      else data.compulsoryHabits[i])
              && t.data == data.(health := t.data.health, xp := t.data.xp, userHealth := t.data.userHealth,
                                 level := t.data.level, unlockedCustomizations := t.data.unlockedCustomizations,
                                 compulsoryHabits := t.data.compulsoryHabits, lastActive := now)
  {
    match FindCompulsory(data.compulsoryHabits, habitId)
    case None => Transition(data, [])
    case Some(i) =>
      var boosted := ApplyHealthAndXpBoosts(data, 10.0, data.compulsoryHabits[i].xp, data.userHealth);
      Transition(
        boosted.data.(compulsoryHabits := MarkCompulsoryDone(data.compulsoryHabits, habitId), lastActive := now),
        boosted.signals)
  }

  /** The habit handleAddHabit creates: id and createdAt from the clock, never completed,
      a zero negative streak only when it is a habit to avoid. */
  function NewHabit(name: string, isNegative: bool, now: int): Habit
  {
    Habit(now, name, 0, isNegative, if isNegative then Some(0) else None, Some(now))
  }

  /** handleAddHabit: appends the new habit and grants a flat +10 XP setup boost; the
      activity time is not stamped and nothing outside the boost and the list changes. */
  function AddHabit(data: UserData, name: string, isNegative: bool, now: int): (t: Transition)
    ensures t.data.habits == data.habits + [NewHabit(name, isNegative, now)]
    ensures t.data.xp == data.xp + 10
    ensures t.data.level >= data.level
    ensures WalkedLevel(data, t.data)
    ensures t.signals == LevelUpSignals(data.level, t.data.xp)
    ensures InPercent(data.health) ==> t.data.health == data.health
    ensures t.data.userHealth == WithOverall(data.userHealth)
    ensures t.data == data.(health := t.data.health, xp := t.data.xp, userHealth := t.data.userHealth,
                            level := t.data.level, unlockedCustomizations := t.data.unlockedCustomizations,
                            habits := t.data.habits)
  {
    var boosted := ApplyHealthAndXpBoosts(data, 0.0, 10, data.userHealth);
    Transition(boosted.data.(habits := data.habits + [NewHabit(name, isNegative, now)]), boosted.signals)
  }

  lemma MarkCompletedKeepsHabitsValid(hs: seq<Habit>, id: int, now: int)
    requires HabitsValid(hs)
    ensures HabitsValid(MarkCompleted(hs, id, now))
  {
  }

  lemma MarkRelapsedKeepsHabitsValid(hs: seq<Habit>, id: int, now: int, i: nat)
    requires HabitsValid(hs)
    requires i < |hs| && hs[i].id == id && hs[i].isNegative
    ensures HabitsValid(MarkRelapsed(hs, id, now))
  {
  }

  /** Logging a habit keeps the state valid. */
  lemma LogHabitPreservesValid(data: UserData, habitId: int, now: int)
    requires Valid(data)
    ensures Valid(LogHabit(data, habitId, now).data)
  {
    match FindHabit(data.habits, habitId)
    case None =>
    case Some(i) =>
      if data.habits[i].isNegative {
        MarkRelapsedKeepsHabitsValid(data.habits, habitId, now, i);
      } else {
        var stats := HabitStatBoost(data.habits[i].name, data.userHealth);
        BoostPreservesValid(data, 10.0, 20, stats);
        MarkCompletedKeepsHabitsValid(data.habits, habitId, now);
        var t := LogHabit(data, habitId, now);
        assert t.data.streak >= data.streak;
      }
  }

  /** Completing a compulsory habit keeps the state valid. */
  lemma CompleteCompulsoryPreservesValid(data: UserData, habitId: string, now: int)
    requires Valid(data)
    ensures Valid(CompleteCompulsoryHabit(data, habitId, now).data)
  {
    match FindCompulsory(data.compulsoryHabits, habitId)
    case None =>
    case Some(i) =>
      BoostPreservesValid(data, 10.0, data.compulsoryHabits[i].xp, data.userHealth);
  }

  /** Adding a habit under a fresh id keeps the state valid. */
  lemma AddHabitPreservesValid(data: UserData, name: string, isNegative: bool, now: int)
    requires Valid(data)
    requires forall i :: 0 <= i < |data.habits| ==> data.habits[i].id != now
    ensures Valid(AddHabit(data, name, isNegative, now).data)
  {
    BoostPreservesValid(data, 0.0, 10, data.userHealth);
  }
}

=== FILE: invariant.dfy ===
/** The state invariant every engine transition preserves. */
module Invariant {
  import opened Types
  import opened Clock
  import opened Constants
  import opened Boost

  /** The most sleep entries kept (slice(-30)). */
  const MaxSleepLogs: int := 30

  /** The lowest decay multiplier boosters can reach. */
  const MinDecayMultiplier: real := 0.25

  /** Level within 1..10 and never below what the XP total has earned:
      either the top level, or XP below the next threshold. */
  predicate LevelValid(xp: int, level: int)
  {
    && xp >= 0
    && 1 <= level <= MaxLevel
    && (level == MaxLevel || xp < LevelThresholds[level])
  }

  /** The unlocked ids are duplicate-free and are exactly the customizations
      bound to a level at most the current one. */
  ghost predicate UnlocksValid(unlocked: seq<string>, level: int)
  {
    && NoDuplicates(unlocked)
    && forall id :: id in unlocked <==> exists c :: c in Customizations && c.id == id && c.level <= level
  }

  predicate MedsValid(data: UserData)
  {
    && 0 <= data.medsDosesTakenToday <= data.medsDosesPerDay
    && data.medsStreak >= 0
  }

  /** Entries on strictly increasing calendar days. */
  ghost predicate IncreasingDays(logs: seq<SleepLog>)
  {
    forall i, j :: 0 <= i < j < |logs| ==> Day(logs[i].date) < Day(logs[j].date)
  }

  /** At most 30 entries with 1..5 quality, on strictly increasing calendar days
      (so at most one per day), the newest dated at `lastSleepLog`. */
  ghost predicate SleepLogsValid(logs: seq<SleepLog>, lastSleepLog: int)
  {
    && |logs| <= MaxSleepLogs
    && (forall i :: 0 <= i < |logs| ==> 1 <= logs[i].quality <= 5)
    && IncreasingDays(logs)
    && (|logs| > 0 ==> logs[|logs| - 1].date == lastSleepLog)
  }

  /** Habit ids are distinct and a negative streak is present exactly on negative habits. */
  ghost predicate HabitsValid(hs: seq<Habit>)
  {
    && (forall i, j :: 0 <= i < j < |hs| ==> hs[i].id != hs[j].id)
    && (forall i :: 0 <= i < |hs| ==> (hs[i].negativeStreak.Some? <==> hs[i].isNegative))
  }

  predicate CompulsoryValid(chs: seq<CompulsoryHabit>)
  {
    forall i :: 0 <= i < |chs| ==> chs[i].xp >= 0
  }

  ghost predicate Valid(data: UserData)
  {
    && InPercent(data.health)
    && StatsValid(data.userHealth)
    && LevelValid(data.xp, data.level)
    && UnlocksValid(data.unlockedCustomizations, data.level)
    && MinDecayMultiplier <= data.decayMultiplier <= 1.0
    && data.sleepDebt >= 0
    && data.streak >= 0
    && MedsValid(data)
    && SleepLogsValid(data.sleepLogs, data.lastSleepLog)
    && HabitsValid(data.habits)
    && CompulsoryValid(data.compulsoryHabits)
  }

  /** Replacing the sleep log, its newest date and the sleep debt with well-formed values
      keeps a valid state valid. */
  lemma ValidWithSleepLogs(data: UserData, debt: int, logs: seq<SleepLog>, last: int)
    requires Valid(data)
    requires debt >= 0
    requires SleepLogsValid(logs, last)
    ensures Valid(data.(sleepDebt := debt, sleepLogs := logs, lastSleepLog := last))
  {
  }

  /** A non-negative XP boost from a valid state, with sub-stats kept in range, yields
      a valid level, unlock list, health and sub-stats; nothing else is touched. */
  lemma BoostPreservesValid(data: UserData, healthBoost: real, xpBoost: int, stats: UserHealthStats)
    requires Valid(data)
    requires xpBoost >= 0
    requires InPercent(stats.hydration) && InPercent(stats.activity)
    requires InPercent(stats.mental) && InPercent(stats.gut)
    ensures Valid(ApplyHealthAndXpBoosts(data, healthBoost, xpBoost, stats).data)
  {
    var t := ApplyHealthAndXpBoosts(data, healthBoost, xpBoost, stats);
    var u := t.data.unlockedCustomizations;
    forall id ensures id in u <==> exists c :: c in Customizations && c.id == id && c.level <= t.data.level {
      if id in u && id !in data.unlockedCustomizations {
        var c :| c in Customizations && c.id == id && data.level < c.level <= t.data.level;
      }
      if exists c :: c in Customizations && c.id == id && c.level <= t.data.level {
        var c :| c in Customizations && c.id == id && c.level <= t.data.level;
        if c.level <= data.level {
          assert id in data.unlockedCustomizations;
        }
      }
    }
  }
}

=== FILE: medication.dfy ===
/** Medication intents: logging a dose (with the adherence streak) and toggling tracking. */
module Medication {
  import opened Types
  import opened Clock
  import opened Boost
  import opened Invariant

  /** This dose completes the day's schedule. */
  predicate CompletesDay(data: UserData)
  {
    data.medsDosesTakenToday + 1 == data.medsDosesPerDay
  }

  /** The adherence streak when the day's last dose is logged: one more when the previous
      completed day was yesterday, otherwise a fresh streak of 1. */
  function NextMedsStreak(data: UserData, now: int): (r: int)
    ensures Day(data.lastCompletedMedDay) == Day(now) - 1 ==> r == data.medsStreak + 1
    ensures Day(data.lastCompletedMedDay) != Day(now) - 1 ==> r == 1
  {
    DayBefore(now);
    if SameDay(data.lastCompletedMedDay, now - MsPerDay) then data.medsStreak + 1 else 1
  }

  /** handleLogMedication: a no-op while tracking is off or today's quota is met; otherwise
      one more dose, +10 health and +50 XP, and on the dose that completes the day the
      streak and the completed-day stamp are updated. */
  function LogMedication(data: UserData, now: int): (t: Transition)
    ensures !data.medsEnabled || data.medsDosesTakenToday >= data.medsDosesPerDay ==> t == Transition(data, [])
    ensures data.medsEnabled && data.medsDosesTakenToday < data.medsDosesPerDay ==>
              && t.data.medsDosesTakenToday == data.medsDosesTakenToday + 1
              && t.data.medsDosesTakenToday <= t.data.medsDosesPerDay == data.medsDosesPerDay
              && t.data.lastMedDoseTimestamp == now
              && t.data.xp == data.xp + 50
              && (InPercent(data.health) ==> t.data.health == Min(100.0, data.health + 10.0))
              && t.data.userHealth == WithOverall(data.userHealth)
              && t.data.medsEnabled
              && WalkedLevel(data, t.data)
              && t.signals == LevelUpSignals(data.level, t.data.xp)
              && t.data == data.(health := t.data.health, xp := t.data.xp, userHealth := t.data.userHealth,
                                 level := t.data.level, unlockedCustomizations := t.data.unlockedCustomizations,
                                 medsDosesTakenToday := t.data.medsDosesTakenToday, medsStreak := t.data.medsStreak,
                                 lastCompletedMedDay := t.data.lastCompletedMedDay, lastMedDoseTimestamp := now)
  {
    if !data.medsEnabled || data.medsDosesTakenToday >= data.medsDosesPerDay then Transition(data, [])
    else
      var completes := CompletesDay(data);
      var boosted := ApplyHealthAndXpBoosts(data, 10.0, 50, data.userHealth);
      Transition(
        boosted.data.(medsDosesTakenToday := data.medsDosesTakenToday + 1,
                      medsStreak := if completes then NextMedsStreak(data, now) else data.medsStreak,
                      lastCompletedMedDay := if completes then now else data.lastCompletedMedDay,
                      lastMedDoseTimestamp := now),
        boosted.signals)
  }

  /** On the dose that completes the day the streak continues exactly when the last
      completed day was yesterday and restarts at 1 otherwise; any other dose leaves
      the streak and the completed-day stamp alone. */
  lemma MedsStreakRule(data: UserData, now: int)
    requires data.medsEnabled && data.medsDosesTakenToday < data.medsDosesPerDay
    ensures CompletesDay(data) ==>
              && LogMedication(data, now).data.medsStreak ==
                   (if Day(data.lastCompletedMedDay) == Day(now) - 1 then data.medsStreak + 1 else 1)
              && LogMedication(data, now).data.lastCompletedMedDay == now
    ensures !CompletesDay(data) ==>
              && LogMedication(data, now).data.medsStreak == data.medsStreak
              && LogMedication(data, now).data.lastCompletedMedDay == data.lastCompletedMedDay
  {
    DayBefore(now);
  }

  /** The completed-day stamp only ever moves on a log that completes the day's doses. */
  lemma LastCompletedMedDayMovesOnlyOnCompletion(data: UserData, now: int)
    requires LogMedication(data, now).data.lastCompletedMedDay != data.lastCompletedMedDay
    ensures data.medsEnabled && CompletesDay(data)
    ensures LogMedication(data, now).data.medsDosesTakenToday == data.medsDosesPerDay
  {
  }

  /** handleToggleMeds: sets tracking on or off, with the given schedule when enabling and
      none when disabling, and zeroes today's doses and the streak. */
  function ToggleMeds(data: UserData, enabled: bool, dosesPerDay: int): (t: Transition)
    ensures t.data.medsEnabled == enabled
    ensures t.data.medsDosesPerDay == (if enabled then dosesPerDay else 0)
    ensures t.data.medsDosesTakenToday == 0 && t.data.medsStreak == 0
    ensures t.data == data.(medsEnabled := enabled, medsDosesPerDay := t.data.medsDosesPerDay,
                            medsDosesTakenToday := 0, medsStreak := 0)
    ensures t.signals == []
  {
    Transition(
      data.(medsEnabled := enabled,
            medsDosesPerDay := if enabled then dosesPerDay else 0,
            medsDosesTakenToday := 0,
            medsStreak := 0),
      [])
  }

  /** Logging a dose keeps the state valid; in particular doses taken never exceed the schedule. */
  lemma LogMedicationPreservesValid(data: UserData, now: int)
    requires Valid(data)
    ensures Valid(LogMedication(data, now).data)
    ensures LogMedication(data, now).data.medsDosesTakenToday <= LogMedication(data, now).data.medsDosesPerDay
  {
    if data.medsEnabled && data.medsDosesTakenToday < data.medsDosesPerDay {
      BoostPreservesValid(data, 10.0, 50, data.userHealth);
    }
  }

  /** Toggling with a non-negative schedule (the settings menu passes at least 1) keeps the state valid. */
  lemma ToggleMedsPreservesValid(data: UserData, enabled: bool, dosesPerDay: int)
    requires Valid(data)
    requires dosesPerDay >= 0
    ensures Valid(ToggleMeds(data, enabled, dosesPerDay).data)
  {
  }
}

=== FILE: onboarding.dfy ===
/** Onboarding: scoring the lifestyle survey into starting sub-stats and building the initial state. */
module Onboarding {
  import opened Types
  import opened Constants
  import opened Invariant

  /** An integer score clamped to 0..100. */
  function ClampScore(x: int): (r: int)
    ensures 0 <= r <= 100
    ensures 0 <= x <= 100 ==> r == x
    ensures x < 0 ==> r == 0
    ensures x > 100 ==> r == 100
  {
    MaxInt(0, MinInt(100, x))
  }

  /** Hydration: the share of an 8-glass target met, capped at the target, as a rounded percentage.
      Unlike the other three scores it is not clamped from below. */
  function HydrationScore(s: OnboardingSurveyData): (r: int)
    ensures s.waterIntake >= 0.0 ==> 0 <= r <= 100
    ensures s.waterIntake >= 8.0 ==> r == 100
    ensures s.waterIntake == 0.0 ==> r == 0
  {
    Round(Min(1.0, s.waterIntake / 8.0) * 100.0)
  }

  /** Weighted blend of movement, exercise, sitting, sleep quality and sleep length (weights 0.3,
      0.3, 0.1, 0.15, 0.15), as a percentage before rounding. */
  function ActivityBlend(s: OnboardingSurveyData): real
  {
    (Min(1.0, s.moveHours / 1.5) * 0.3
      + s.exerciseFrequency / 7.0 * 0.3
      + (1.0 - s.sedentaryHours / 16.0) * 0.1
      + (s.sleepQuality - 1.0) / 4.0 * 0.15
      + Min(1.0, s.sleepHours / 8.0) * 0.15) * 100.0
  }

  /** Weighted blend of reading, low stress, social connection and low screen time
      (weights 0.25, 0.35, 0.2, 0.2), as a percentage before rounding. */
  function MentalBlend(s: OnboardingSurveyData): real
  {
    (Min(1.0, s.readHours / 1.0) * 0.25
      + (10.0 - s.stressLevel) / 9.0 * 0.35
      + (s.socialConnection - 1.0) / 4.0 * 0.2
      + (1.0 - Min(1.0, s.screenTimeHours / 6.0)) * 0.2) * 100.0
  }

  /** Weighted blend of fibre and low processed-food intake (weights 0.6, 0.4), as a percentage. */
  function GutBlend(s: OnboardingSurveyData): real
  {
    (Min(1.0, s.fiberGrams / 30.0) * 0.6 + (5.0 - s.processedFoodConsumption) / 4.0 * 0.4) * 100.0
  }

  /** The four starting sub-stats and their rounded mean. Activity, mental and gut are
      rounded and clamped to 0..100; hydration is in range whenever the water answer is
      non-negative. */
  function SurveyScores(s: OnboardingSurveyData): (r: UserHealthStats)
    ensures r.hydration == HydrationScore(s) as real
    ensures r.activity == ClampScore(Round(ActivityBlend(s))) as real
    ensures r.mental == ClampScore(Round(MentalBlend(s))) as real
    ensures r.gut == ClampScore(Round(GutBlend(s))) as real
    ensures InPercent(r.activity) && InPercent(r.mental) && InPercent(r.gut)
    ensures s.waterIntake >= 0.0 ==> StatsValid(r)
    ensures r.overall == OverallOf(r)
  {
    WithOverall(UserHealthStats(0,
                                HydrationScore(s) as real,
                                ClampScore(Round(ActivityBlend(s))) as real,
                                ClampScore(Round(MentalBlend(s))) as real,
                                ClampScore(Round(GutBlend(s))) as real))
  }

  /** handleOnboardingComplete: the first state of a new buddy. Starting health is the survey's
      overall score; XP 50 at level 1 with nothing unlocked, a full decay multiplier, the one
      default habit, and every log time and counter at zero. */
  function CompleteOnboarding(survey: OnboardingSurveyData, medsEnabled: bool, medsDosesPerDay: int,
                              now: int, loadTime: int): (t: Transition)
    ensures t.data.userHealth == SurveyScores(survey)
    ensures t.data.health == t.data.userHealth.overall as real
    ensures t.data.xp == 50 && t.data.level == 1 && t.data.unlockedCustomizations == []
    ensures t.data.decayMultiplier == 1.0 && t.data.streak == 0 && t.data.sleepDebt == 0
    ensures t.data.habits == DefaultHabits(loadTime) && t.data.compulsoryHabits == []
    ensures t.data.lastActive == now && t.data.lastWeatherCheck == 0
    ensures t.data.onboardingSurvey == Some(survey)
    ensures t.data.medsEnabled == medsEnabled && t.data.medsDosesPerDay == medsDosesPerDay
    ensures t.data.medsDosesTakenToday == 0 && t.data.medsStreak == 0
    ensures t.data.sleepLogs == []
    ensures t.data.lastVitaminLog == 0 && t.data.lastPhysicalActivityLog == 0 && t.data.lastSleepLog == 0
    ensures t.data.lastMedDoseTimestamp == 0 && t.data.lastCompletedMedDay == 0
    ensures t.signals == [Notify(OnboardingComplete)]
  {
    var stats := SurveyScores(survey);
    Transition(
      UserData(
        xp := 50,
        streak := 0,
        habits := DefaultHabits(loadTime),
        compulsoryHabits := [],
        health := stats.overall as real,
        userHealth := stats,
        lastActive := now,
        lastWeatherCheck := 0,
        onboardingSurvey := Some(survey),
        decayMultiplier := 1.0,
        lastVitaminLog := 0,
        lastPhysicalActivityLog := 0,
        level := 1,
        unlockedCustomizations := [],
        sleepLogs := [],
        lastSleepLog := 0,
        sleepDebt := 0,
        medsEnabled := medsEnabled,
        medsDosesPerDay := medsDosesPerDay,
        medsDosesTakenToday := 0,
        lastMedDoseTimestamp := 0,
        medsStreak := 0,
        lastCompletedMedDay := 0),
      [Notify(OnboardingComplete)])
  }

  /** A new buddy starts in a valid state whenever the water answer and the dose schedule are
      non-negative (the survey sliders and the dose picker only offer such values). */
  lemma OnboardingStartsValid(survey: OnboardingSurveyData, medsEnabled: bool, medsDosesPerDay: int,
                              now: int, loadTime: int)
    requires survey.waterIntake >= 0.0
    requires medsDosesPerDay >= 0
    ensures Valid(CompleteOnboarding(survey, medsEnabled, medsDosesPerDay, now, loadTime).data)
  {
    var d := CompleteOnboarding(survey, medsEnabled, medsDosesPerDay, now, loadTime).data;
    OverallInPercent(d.userHealth);
    CustomizationsReachable();
  }
}

=== FILE: progress.dfy ===
/** The progress tile's weekly completion rate and most recently completed habit. */
module ProgressTile {
  import opened Types
  import opened Clock
  import opened Dashboard

  /** Whether a completion time is strictly after the cutoff. */
  predicate Recent(h: Habit, cutoff: int)
  {
    h.lastCompleted > cutoff
  }

  /** How many habits were completed strictly after the cutoff. */
  function CountRecent(hs: seq<Habit>, cutoff: int): (n: nat)
    ensures n <= |hs|
    ensures n == 0 <==> forall i :: 0 <= i < |hs| ==> !Recent(hs[i], cutoff)
    ensures n == |hs| <==> forall i :: 0 <= i < |hs| ==> Recent(hs[i], cutoff)
  {
    if |hs| == 0 then 0
    else CountRecent(hs[..|hs| - 1], cutoff) + (if Recent(hs[|hs| - 1], cutoff) then 1 else 0)
  }

  /** The recent count of a concatenation is the sum of the counts of its parts. */
  lemma {:induction false} CountRecentAppend(a: seq<Habit>, b: seq<Habit>, cutoff: int)
    ensures CountRecent(a + b, cutoff) == CountRecent(a, cutoff) + CountRecent(b, cutoff)
    decreases |b|
  {
    if |b| == 0 {
      assert a + b == a;
    } else {
      assert (a + b)[..|a + b| - 1] == a + b[..|b| - 1];
      CountRecentAppend(a, b[..|b| - 1], cutoff);
    }
  }

  /** The share of habits completed in the last seven days, as a rounded percentage; 0 with no habits. */
  function WeeklyCompletion(hs: seq<Habit>, now: int): (p: int)
    ensures |hs| == 0 ==> p == 0
    ensures 0 <= p <= 100
    ensures |hs| > 0 && (forall i :: 0 <= i < |hs| ==> Recent(hs[i], now - 7 * MsPerDay)) ==> p == 100
    ensures (forall i :: 0 <= i < |hs| ==> !Recent(hs[i], now - 7 * MsPerDay)) ==> p == 0
    ensures |hs| > 0 ==>
              var share := Ratio(CountRecent(hs, now - 7 * MsPerDay), |hs|) * 100.0;
              p as real - 0.5 <= share < p as real + 0.5
  {
    var total := |hs|;
    if total > 0 then
      var count := CountRecent(hs, now - 7 * MsPerDay);
      Round(Ratio(count, total) * 100.0)
    else 0
  }

  /** With at most 100 habits the rounded share is exact at both ends: it shows 100 exactly
      when every habit was completed in the last week and 0 exactly when none was (beyond
      100 habits one miss can round to 100, and beyond 200 one completion can round to 0). */
  lemma WeeklyCompletionExtremes(hs: seq<Habit>, now: int)
    requires 0 < |hs| <= 100
    ensures WeeklyCompletion(hs, now) == 100 <==> forall i :: 0 <= i < |hs| ==> Recent(hs[i], now - 7 * MsPerDay)
    ensures WeeklyCompletion(hs, now) == 0 <==> forall i :: 0 <= i < |hs| ==> !Recent(hs[i], now - 7 * MsPerDay)
  {
    RoundedShareExtremes(CountRecent(hs, now - 7 * MsPerDay), |hs|);
  }

  /** For n in 1..100, the rounded percentage count/n is 100 only for count = n and 0 only
      for count = 0. */
  lemma RoundedShareExtremes(count: int, n: int)
    requires 0 <= count <= n && 0 < n <= 100
    ensures Round(Ratio(count, n) * 100.0) == 100 <==> count == n
    ensures Round(Ratio(count, n) * 100.0) == 0 <==> count == 0
  {
    var q := Ratio(count, n);
    var total := n as real;
    assert q * total == count as real && 0.0 <= q <= 1.0;
    var r := Round(q * 100.0);
    assert q * 100.0 - 0.5 < r as real <= q * 100.0 + 0.5;
    if count == n {
      assert r == 100;
    } else {
      var gap := 1.0 - q;
      assert gap * total == total - q * total;
      assert gap * total >= 1.0;
      ScaleMonotone(gap, total, 100.0);
      assert gap * 100.0 >= 1.0;
      assert q * 100.0 <= 99.0;
      assert r as real <= 99.5;
      assert r <= 99;
      if count > 0 {
        assert q * total >= 1.0;
        ScaleMonotone(q, total, 100.0);
        assert q * 100.0 >= 1.0;
        assert r as real > 0.5;
        assert r >= 1;
      } else {
        assert r == 0;
      }
    }
  }

  /** Scaling by a non-negative factor keeps order. */
  lemma ScaleMonotone(a: real, b: real, c: real)
    requires a >= 0.0 && b <= c
    ensures a * b <= a * c
  {
    assert a * c - a * b == a * (c - b);
  }

  /** The index the left-to-right reduction keeps: a later habit replaces the running one only
      when its completion time is strictly later, so ties keep the earliest. */
  function MostRecentIndex(hs: seq<Habit>): (k: nat)
    requires |hs| > 0
    ensures k < |hs|
    ensures forall i :: 0 <= i < |hs| ==> hs[i].lastCompleted <= hs[k].lastCompleted
    ensures forall i :: 0 <= i < k ==> hs[i].lastCompleted < hs[k].lastCompleted
  {
    if |hs| == 1 then 0
    else
      var k := MostRecentIndex(hs[..|hs| - 1]);
      if hs[|hs| - 1].lastCompleted > hs[k].lastCompleted then |hs| - 1 else k
  }

  /** The earliest habit with the latest completion time is unique, so any index with both
      properties is the one the reduction returns. */
  lemma MostRecentIndexUnique(hs: seq<Habit>, j: int)
    requires 0 <= j < |hs|
    requires forall i :: 0 <= i < |hs| ==> hs[i].lastCompleted <= hs[j].lastCompleted
    requires forall i :: 0 <= i < j ==> hs[i].lastCompleted < hs[j].lastCompleted
    ensures MostRecentIndex(hs) == j
  {
  }

  /** The most recently completed habit, or none with no habits; among habits completed at
      the same latest time it is the earliest in the list. */
  function MostRecentHabit(hs: seq<Habit>): (r: Option<Habit>)
    ensures r.None? <==> |hs| == 0
    ensures r.Some? ==> r.value in hs && forall i :: 0 <= i < |hs| ==> hs[i].lastCompleted <= r.value.lastCompleted
    ensures r.Some? ==> exists k :: 0 <= k < |hs| && hs[k] == r.value &&
                          forall i :: 0 <= i < k ==> hs[i].lastCompleted < hs[k].lastCompleted
  {
    if |hs| == 0 then None else Some(hs[MostRecentIndex(hs)])
  }
}

=== FILE: strings.dfy ===
/** The two string operations the engine relies on: ASCII lower-casing
    (String.prototype.toLowerCase) and substring search (String.prototype.includes). */
module Strings {

  function LowerChar(c: char): char
  {
    if 'A' <= c <= 'Z' then (c as int - 'A' as int + 'a' as int) as char else c
  }

  function UpperChar(c: char): char
  {
    if 'a' <= c <= 'z' then (c as int - 'a' as int + 'A' as int) as char else c
  }

  function ToLower(s: string): (r: string)
    ensures |r| == |s|
    ensures forall i :: 0 <= i < |s| ==> r[i] == LowerChar(s[i])
  {
    seq(|s|, i requires 0 <= i < |s| => LowerChar(s[i]))
  }

  function ToUpper(s: string): (r: string)
    ensures |r| == |s|
    ensures forall i :: 0 <= i < |s| ==> r[i] == UpperChar(s[i])
  {
    seq(|s|, i requires 0 <= i < |s| => UpperChar(s[i]))
  }

  /** Lower-casing forgets case: an upper-cased or already lower-cased string lowers to the same thing. */
  lemma LowerForgetsCase(s: string)
    ensures ToLower(ToUpper(s)) == ToLower(s)
    ensures ToLower(ToLower(s)) == ToLower(s)
  {
  }

  /** `p` occurs somewhere in `s`. */
  predicate Contains(s: string, p: string)
    decreases |s|
  {
    |p| <= |s| && (s[..|p|] == p || (|s| > 0 && Contains(s[1..], p)))
  }

  /** `p` occurs in `s` starting at position `i`. */
  predicate OccursAt(s: string, p: string, i: int)
  {
    0 <= i <= |s| - |p| && s[i..i + |p|] == p
  }

  /** The keyword `p` occurs somewhere in the lower-cased `name`: what
      `name.toLowerCase().includes(p)` tests. */
  ghost predicate Mentions(name: string, p: string)
  {
    exists i :: OccursAt(ToLower(name), p, i)
  }

  /** Contains holds exactly when `p` occurs at some position of `s`. */
  lemma {:induction false} ContainsIff(s: string, p: string)
    ensures Contains(s, p) <==> exists i :: OccursAt(s, p, i)
    decreases |s|
  {
    if |p| <= |s| && |s| > 0 {
      ContainsIff(s[1..], p);
      if exists i :: OccursAt(s, p, i) {
        var i :| OccursAt(s, p, i);
        if i > 0 {
          assert s[1..][i - 1..i - 1 + |p|] == s[i..i + |p|];
          assert OccursAt(s[1..], p, i - 1);
        }
      }
      if Contains(s[1..], p) && s[..|p|] != p {
        var j :| OccursAt(s[1..], p, j);
        assert s[j + 1..j + 1 + |p|] == s[1..][j..j + |p|];
        assert OccursAt(s, p, j + 1);
      }
      if s[..|p|] == p {
        assert OccursAt(s, p, 0);
      }
    } else if |p| <= |s| {
      assert OccursAt(s, p, 0);
    }
  }
}

=== FILE: ticks.dfy ===
/** The time-driven transitions: offline catch-up decay on load, the hourly tick,
    the hide-stamp, and the once-a-day weather check that regenerates compulsory habits. */
module Ticks {
  import opened Types
  import opened Clock
  import opened DecayManager
  import opened Invariant
  import opened Medication

  /** Sleep debt drains every sub-stat by `amount` (mental by one and a half times that),
      never below 0, and `overall` is recomputed. */
  function SleepStatDecay(s: UserHealthStats, amount: real): (r: UserHealthStats)
    ensures r.hydration == Max(0.0, s.hydration - amount)
    ensures r.activity == Max(0.0, s.activity - amount)
    ensures r.mental == Max(0.0, s.mental - amount * 1.5)
    ensures r.gut == Max(0.0, s.gut - amount)
    ensures StatsValid(s) && amount >= 0.0 ==> StatsValid(r)
    ensures amount >= 0.0 ==> r.hydration <= Max(0.0, s.hydration) && r.activity <= Max(0.0, s.activity)
    ensures amount >= 0.0 ==> r.mental <= Max(0.0, s.mental) && r.gut <= Max(0.0, s.gut)
  {
    WithOverall(UserHealthStats(0,
                                Max(0.0, s.hydration - amount),
                                Max(0.0, s.activity - amount),
                                Max(0.0, s.mental - amount * 1.5),
                                Max(0.0, s.gut - amount)))
  }

  /** `hours` hours of decay at `rate`: health down by hours x rate and every sub-stat
      drained by hours x one tenth of the sleep debt (mental 1.5 times that), all floored at 0,
      with the activity time stamped; nothing else changes. */
  function DecayHours(data: UserData, hours: int, rate: real, now: int): (d: UserData)
    ensures d.health == Max(0.0, data.health - hours as real * rate)
    ensures d.userHealth == SleepStatDecay(data.userHealth, hours as real * (data.sleepDebt as real * 0.1))
    ensures d == data.(health := d.health, userHealth := d.userHealth, lastActive := now)
    ensures InPercent(data.health) && hours >= 0 && rate >= 0.0 ==> InPercent(d.health) && d.health <= data.health
    ensures StatsValid(data.userHealth) && hours >= 0 && data.sleepDebt >= 0 ==> StatsValid(d.userHealth)
  {
    var amount := hours as real * rate;
    var drain := hours as real * (data.sleepDebt as real * 0.1);
    assert hours >= 0 && rate >= 0.0 ==> amount >= 0.0;
    assert hours >= 0 && data.sleepDebt >= 0 ==> drain >= 0.0;
    data.(health := Max(0.0, data.health - amount),
          userHealth := SleepStatDecay(data.userHealth, drain),
          lastActive := now)
  }

  /** Catch-up on load: every whole hour since `lastActive` costs one hour of decay at the
      current rate; with no whole hour elapsed nothing changes. */
  function OfflineDecay(data: UserData, now: int): (t: Transition)
    ensures t.signals == []
    ensures HoursBetween(data.lastActive, now) <= 0 ==> t.data == data
    ensures HoursBetween(data.lastActive, now) > 0 ==>
              t.data == DecayHours(data, HoursBetween(data.lastActive, now), CalculateDecayRate(data, HourOf(now)), now)
  {
    var hours := HoursBetween(data.lastActive, now);
    if hours <= 0 then Transition(data, [])
    else Transition(DecayHours(data, hours, CalculateDecayRate(data, HourOf(now)), now), [])
  }

  /** Catch-up decay is idempotent at a fixed time: it stamps `lastActive := now`, so a
      second application at the same instant finds no elapsed hour. */
  lemma OfflineDecayIdempotent(data: UserData, now: int)
    ensures OfflineDecay(OfflineDecay(data, now).data, now) == OfflineDecay(data, now)
  {
  }

  /** Catch-up decay never raises health and keeps a valid state valid. */
  lemma OfflineDecayPreservesValid(data: UserData, now: int)
    requires Valid(data)
    ensures Valid(OfflineDecay(data, now).data)
    ensures OfflineDecay(data, now).data.health <= data.health
  {
    var hours := HoursBetween(data.lastActive, now);
    if hours > 0 {
      assert CalculateDecayRate(data, HourOf(now)) >= 0.0;
    }
  }

  /** Today's dose counter, zeroed when tracking is on and the last dose was on an earlier day. */
  function ResetDosesIfNewDay(data: UserData, now: int): (r: UserData)
    ensures data.medsEnabled && !SameDay(data.lastMedDoseTimestamp, now) ==>
              r == data.(medsDosesTakenToday := 0)
    ensures !(data.medsEnabled && !SameDay(data.lastMedDoseTimestamp, now)) ==> r == data
  {
    if data.medsEnabled && !SameDay(data.lastMedDoseTimestamp, now) then data.(medsDosesTakenToday := 0)
    else data
  }

  /** The hourly tick: reset the dose counter on a new day, then one hour of decay at the
      rate of the reset state, raising the low-health signal exactly when health crosses
      below 20. */
  function HourlyTick(data: UserData, now: int): (t: Transition)
    ensures var d := ResetDosesIfNewDay(data, now);
            t.data == DecayHours(d, 1, CalculateDecayRate(d, HourOf(now)), now)
    ensures t.data.health == Max(0.0, data.health - CalculateDecayRate(ResetDosesIfNewDay(data, now), HourOf(now)))
    ensures t.signals == [Notify(LowHealth)] <==> t.data.health < 20.0 && data.health >= 20.0
    ensures t.signals == [] <==> !(t.data.health < 20.0 && data.health >= 20.0)
  {
    var d := ResetDosesIfNewDay(data, now);
    var after := DecayHours(d, 1, CalculateDecayRate(d, HourOf(now)), now);
    var signals := if after.health < 20.0 && d.health >= 20.0 then [Notify(LowHealth)] else [];
    Transition(after, signals)
  }

  /** In a valid state the multiplier is at least 0.25, so the rate is positive and every
      tick strictly lowers positive health. */
  lemma TickStrictlyDecays(data: UserData, now: int)
    requires Valid(data)
    requires data.health > 0.0
    ensures HourlyTick(data, now).data.health < data.health
  {
    var d := ResetDosesIfNewDay(data, now);
    assert CalculateDecayRate(d, HourOf(now)) > 0.0;
  }

  /** The hourly tick never raises health and keeps a valid state valid. */
  lemma HourlyTickPreservesValid(data: UserData, now: int)
    requires Valid(data)
    ensures Valid(HourlyTick(data, now).data)
    ensures HourlyTick(data, now).data.health <= data.health
  {
    var d := ResetDosesIfNewDay(data, now);
    assert CalculateDecayRate(d, HourOf(now)) >= 0.0;
  }

  /** On a new day with tracking on, a two-dose schedule completed the day after the last
      completed day extends the medication streak by one. */
  lemma TwoDoseDayExtendsStreak(data: UserData, now: int)
    requires data.medsEnabled && data.medsDosesPerDay == 2
    requires !SameDay(data.lastMedDoseTimestamp, now)
    requires Day(data.lastCompletedMedDay) == Day(now) - 1
    ensures var d0 := HourlyTick(data, now).data;
            var d2 := LogMedication(LogMedication(d0, now).data, now).data;
            && d2.medsDosesTakenToday == 2
            && d2.medsStreak == data.medsStreak + 1
            && d2.lastCompletedMedDay == now
  {
    var d0 := HourlyTick(data, now).data;
    assert d0.medsDosesTakenToday == 0;
    var d1 := LogMedication(d0, now).data;
    assert d1.medsDosesTakenToday == 1 && d1.medsStreak == data.medsStreak;
    assert d1.lastCompletedMedDay == data.lastCompletedMedDay;
    MedsStreakRule(d1, now);
  }

  /** Going hidden only stamps the activity time. */
  function Hide(data: UserData, now: int): (t: Transition)
    ensures t.data.lastActive == now
    ensures t.data.(lastActive := data.lastActive) == data
    ensures t.signals == []
  {
    Transition(data.(lastActive := now), [])
  }

  /** The compulsory habits a weather condition calls for: cold asks for warm clothes. */
  function WeatherHabits(w: Weather): (r: seq<CompulsoryHabit>)
    ensures w == Cold ==> |r| == 1 && !r[0].completed && r[0].xp == 30 && r[0].id == "compulsory-cold"
    ensures w != Cold ==> r == []
  {
    if w == Cold then [CompulsoryHabit("compulsory-cold", "Wear warm clothes", false, Cold, 30)] else []
  }

  /** The daily weather check: on the first check of a calendar day the compulsory list is
      replaced by what the weather calls for; later checks that day change nothing. */
  function RegenerateCompulsoryHabits(data: UserData, now: int, weather: Weather): (t: Transition)
    ensures t.signals == []
    ensures SameDay(data.lastWeatherCheck, now) ==> t.data == data
    ensures !SameDay(data.lastWeatherCheck, now) ==>
              t.data == data.(compulsoryHabits := WeatherHabits(weather), lastWeatherCheck := now)
  {
    if SameDay(data.lastWeatherCheck, now) then Transition(data, [])
    else Transition(data.(compulsoryHabits := WeatherHabits(weather), lastWeatherCheck := now), [])
  }

  /** The weather check runs at most once per day: a second check later the same day,
      whatever weather it sees, is a no-op. */
  lemma RegenerateOncePerDay(data: UserData, now: int, later: int, w1: Weather, w2: Weather)
    requires now <= later && SameDay(now, later)
    ensures var d1 := RegenerateCompulsoryHabits(data, now, w1).data;
            RegenerateCompulsoryHabits(d1, later, w2).data == d1
  {
    var d1 := RegenerateCompulsoryHabits(data, now, w1).data;
    if !SameDay(data.lastWeatherCheck, now) {
      assert d1.lastWeatherCheck == now;
    } else {
      assert Day(d1.lastWeatherCheck) == Day(later);
    }
  }

  /** A cold morning that finds every compulsory habit done doubles the base decay again:
      the rate rises by one base unit (sedentary factor times multiplier). */
  lemma ColdDayRaisesDecay(data: UserData, now: int, hour: int)
    requires !SameDay(data.lastWeatherCheck, now)
    requires data.decayMultiplier > 0.0
    requires forall i :: 0 <= i < |data.compulsoryHabits| ==> data.compulsoryHabits[i].completed
    ensures var d := RegenerateCompulsoryHabits(data, now, Cold).data;
            CalculateDecayRate(d, hour) ==
              CalculateDecayRate(data, hour) + SedentaryFactor(data.onboardingSurvey) * data.decayMultiplier
  {
    var open := WeatherHabits(Cold);
    assert !open[0].completed;
    IncompleteCompulsoryRaisesRate(data, open, hour);
    var d := RegenerateCompulsoryHabits(data, now, Cold).data;
    assert CalculateDecayRate(d, hour) == CalculateDecayRate(data.(compulsoryHabits := open), hour) by {
      DecayRateDecomposition(d, hour);
      DecayRateDecomposition(data.(compulsoryHabits := open), hour);
    }
  }

  /** The weather check keeps a valid state valid. */
  lemma RegeneratePreservesValid(data: UserData, now: int, weather: Weather)
    requires Valid(data)
    ensures Valid(RegenerateCompulsoryHabits(data, now, weather).data)
  {
  }

  /** Hiding keeps a valid state valid. */
  lemma HidePreservesValid(data: UserData, now: int)
    requires Valid(data)
    ensures Valid(Hide(data, now).data)
  {
  }
}

=== FILE: types.dfy ===
/** The state record of the buddy engine and the small numeric helpers every
    transition shares (JavaScript's Math.min, Math.max and Math.round over exact reals). */
module Types {

  datatype Option<+T> = None | Some(value: T)

  datatype Weather = Cold | Rainy | Hot | Mild

  /** A user habit. `isNegative` is false when the source leaves it undefined;
      `negativeStreak` and `createdAt` are optional in the source. */
  datatype Habit = Habit(
    id: int,
    name: string,
    lastCompleted: int,
    isNegative: bool,
    negativeStreak: Option<int>,
    createdAt: Option<int>)

  /** A weather-driven task that lives for one calendar day. */
  datatype CompulsoryHabit = CompulsoryHabit(
    id: string,
    name: string,
    completed: bool,
    weather: Weather,
    xp: int)

  datatype UserHealthStats = UserHealthStats(
    overall: int,
    hydration: real,
    activity: real,
    mental: real,
    gut: real)

  datatype OnboardingSurveyData = OnboardingSurveyData(
    moveHours: real,
    sleepHours: real,
    sedentaryHours: real,
    sleepQuality: real,
    exerciseFrequency: real,
    fiberGrams: real,
    waterIntake: real,
    processedFoodConsumption: real,
    readHours: real,
    stressLevel: real,
    socialConnection: real,
    screenTimeHours: real)

  /** One night's sleep; `quality` is on a 1..5 scale. */
  datatype SleepLog = SleepLog(date: int, quality: int, hours: real)

  /** The engine's whole state (the presentation-only fields of the source record are omitted). */
  datatype UserData = UserData(
    xp: int,
    streak: int,
    habits: seq<Habit>,
    compulsoryHabits: seq<CompulsoryHabit>,
    health: real,
    userHealth: UserHealthStats,
    lastActive: int,
    lastWeatherCheck: int,
    onboardingSurvey: Option<OnboardingSurveyData>,
    decayMultiplier: real,
    lastVitaminLog: int,
    lastPhysicalActivityLog: int,
    level: int,
    unlockedCustomizations: seq<string>,
    sleepLogs: seq<SleepLog>,
    lastSleepLog: int,
    sleepDebt: int,
    medsEnabled: bool,
    medsDosesPerDay: int,
    medsDosesTakenToday: int,
    lastMedDoseTimestamp: int,
    medsStreak: int,
    lastCompletedMedDay: int)

  /** The symbolic reasons the engine hands to the notification generator. */
  datatype ReasonCode =
    | Streak
    | HabitComplete
    | NegativeHabitRelapse
    | LowHealth
    | OnboardingComplete

  /** Side-effect signals: a notification reason, or a level-up carrying the
      new level and the display names of the items it unlocked. */
  datatype Signal =
    | Notify(reason: ReasonCode)
    | LevelUp(level: int, unlockedNames: seq<string>)

  /** What every engine operation returns: the next state and its signals. */
  datatype Transition = Transition(data: UserData, signals: seq<Signal>)

  function Min(a: real, b: real): (r: real)
    ensures r <= a && r <= b
    ensures r == a || r == b
  {
    if a <= b then a else b
  }

  function Max(a: real, b: real): (r: real)
    ensures r >= a && r >= b
    ensures r == a || r == b
  {
    if a >= b then a else b
  }

  function MinInt(a: int, b: int): (r: int)
    ensures r <= a && r <= b
    ensures r == a || r == b
  {
    if a <= b then a else b
  }

  function MaxInt(a: int, b: int): (r: int)
    ensures r >= a && r >= b
    ensures r == a || r == b
  {
    if a >= b then a else b
  }

  /** JavaScript's Math.round: the nearest integer, halves rounded upward. */
  function Round(x: real): (r: int)
    ensures x - 0.5 < r as real <= x + 0.5
  {
    (x + 0.5).Floor
  }

  /** Rounding keeps a value inside any integer-bounded range it started in. */
  lemma RoundWithin(x: real, lo: int, hi: int)
    requires lo as real <= x <= hi as real
    ensures lo <= Round(x) <= hi
  {
  }

  /** `overall` as the source recomputes it: the rounded mean of the four sub-stats. */
  function OverallOf(s: UserHealthStats): int
  {
    Round((s.hydration + s.activity + s.mental + s.gut) / 4.0)
  }

  /** The sub-stats with `overall` brought back in line with them. */
  function WithOverall(s: UserHealthStats): (r: UserHealthStats)
    ensures r.hydration == s.hydration && r.activity == s.activity
    ensures r.mental == s.mental && r.gut == s.gut
    ensures r.overall == OverallOf(r)
  {
    s.(overall := OverallOf(s))
  }

  predicate InPercent(x: real)
  {
    0.0 <= x <= 100.0
  }

  /** Sub-stats within 0..100 and `overall` equal to their rounded mean. */
  predicate StatsValid(s: UserHealthStats)
  {
    && InPercent(s.hydration)
    && InPercent(s.activity)
    && InPercent(s.mental)
    && InPercent(s.gut)
    && s.overall == OverallOf(s)
  }

  /** The overall score of valid sub-stats is itself a percentage. */
  lemma OverallInPercent(s: UserHealthStats)
    requires StatsValid(s)
    ensures 0 <= s.overall <= 100
  {
    RoundWithin((s.hydration + s.activity + s.mental + s.gut) / 4.0, 0, 100);
  }
}
